=== FILE: README.md ===
# Game bookkeeping of the leela-zero-ui match driver

This project models, in Dafny, the engine-independent bookkeeping in
`src/play.cpp` of leela-zero-ui. That file drives Go engines over GTP
(the Go Text Protocol). The model covers four parts:

- **SGF point encoding** (`move_to_text_sgf`, module `Sgf`). A board
  position becomes a column letter followed by a row letter. Rows are
  counted from the far edge. Every negative position (pass or resign) is
  written `tt`.
- **Engine version check** (`get_ver_list` and `checkVersion`, module
  `Version`). A dotted version string is split with `getline`, and each
  item is read with `stoi`. The list is zero-padded to three numbers. The
  engine's version is then compared with a minimum through the weighted
  difference `major*10000 + minor*100 + patch`.
- **The tournament `Game` record** (module `Tournament`). It holds the
  move counter, the pass counter and the resignation flags. It also holds
  the side to move, the winner and the result string, and the member
  functions that update them: `move`, `setMove`, `checkGameEnd`,
  `nextMove`, `setMovesCount`, `getScore` and `getWinner`.
- **The self-play driver** (`selfplay`, module `SelfPlay`). It runs the
  start-up checks and the turn loop over one or two engines. The loop
  stops at a resignation, at a second consecutive pass, or at the fixed
  cap of 722 plies. Afterwards, the SGF game record is assembled.

The engines are not modelled. Every answer an engine would give is an
input:

- whether it accepted a command (`ok`);
- its reply text;
- for self-play, a script that maps each ply index to the `genmove`
  reply, the position that reply parses to, and the peer's reply to the
  relayed `play`.

The C++ standard-library pieces the core relies on are modelled in
module `Text`: `std::string::find`, `std::getline` on a separator,
`std::to_string` and `std::stoi`. `Results` holds the `Option` and
`Result` types. Errors that the source raises by throwing (`error_exit`,
`runtime_error`) or by returning -1 become `Failure` values. Where the
source writes to the object before it throws, the failure carries the
object as the write left it.

## Model

| member | source | states |
|---|---|---|
| Sgf.MoveToSgf | src/play.cpp:419-436 | Every position is written as exactly two characters. Every negative position (pass, resign) is written `tt`. |
| Sgf.ByteChar | src/play.cpp:431-432 | `static_cast<char>` yields one byte: the character's code lies in 0..255 and is congruent to the value modulo 256. |
| Sgf.PointLetters | src/play.cpp:426-432 | On a board of up to 26x26, a point becomes two letters among the first `size` letters. The first letter is the column, `pos % size`. The second is the row counted from the far edge, `size - 1 - pos / size`. |
| Sgf.EncodeThenDecode | src/play.cpp:419-436 | Reading the two letters back recovers every on-board position of a board up to 26x26. |
| Sgf.DecodeThenEncode | src/play.cpp:419-436 | Every two-letter string that names a point is the encoding of exactly that on-board position. |
| Sgf.EncodeInjective | src/play.cpp:426-432 | Two on-board positions get the same letters if and only if they are the same position. |
| Sgf.PassIsNotAPoint | src/play.cpp:422-432 | On boards up to 19x19, no board point is written `tt`, so a pass is unambiguous. |
| Sgf.PassCollidesOnLargeBoards | src/play.cpp:422-432 | On boards from 20x20 to 26x26, one board point is also written `tt`, so the record cannot tell it from a pass. |
| Sgf.CornerOf19x19 | src/play.cpp:426-432 | Position 0 of a 19x19 board is written `as`: column a, on the last row. |
| Text.Contains | src/play.cpp:693-697 | `find` reports a match whenever the string starts with `sub`, and never reports one for a `sub` longer than the string. |
| Text.ContainsIffOccurs | src/play.cpp:693-697 | `find(sub) != npos` holds exactly when `sub` occurs at some position of the string. |
| Text.SplitOn | src/play.cpp:608 | Splitting on '.' gives at least one piece. No piece holds a '.', and joining the pieces with '.' gives back the input. |
| Text.SplitJoin | src/play.cpp:608 | Splitting undoes joining for pieces that hold no separator. |
| Text.GetlineItems | src/play.cpp:608 | The `getline` loop extracts the pieces of the split in order, as a prefix of them. At most one piece is lost: the final one, and only when it is empty. |
| Text.NatToDecimal | src/play.cpp:578 | `to_string` of a non-negative number is a non-empty string of digits. It has no leading zero, and its value is the number. |
| Text.IntToDecimal | src/play.cpp:578 | `to_string` starts with '-' exactly for negative numbers. The digits that follow spell the absolute value, without a leading zero (the only numeral starting with '0' is "0" itself). |
| Text.StringToInt | src/play.cpp:609 | `stoi` either fails or returns a value in the 32-bit int range. |
| Text.NoDigitIsInvalid | src/play.cpp:609 | `stoi` of a string without any digit fails with `invalid_argument`. |
| Text.StringToIntSkipsSpace | src/play.cpp:609 | A leading whitespace character does not change what `stoi` reads. |
| Text.StringToIntIgnoresTrailing | src/play.cpp:609 | `stoi` stops at the first non-digit after the digits: what follows does not change the result. |
| Text.ReadSigned | src/play.cpp:609 | Reading after the whitespace yields a 32-bit int or an error, and `invalid_argument` when no digit is present. |
| Text.Narrow | src/play.cpp:609 | A value is returned exactly when it fits the 32-bit int range. Otherwise the error is `out_of_range`. |
| Text.StringToIntOfDigits | src/play.cpp:609 | `stoi` of a digit string is its value when that value fits an int. Otherwise it fails with `out_of_range`. |
| Text.StringToIntOfDecimal | src/play.cpp:609 | `stoi` reads back every 32-bit int that `to_string` writes. |
| Version.ParseComponents | src/play.cpp:608-610 | The parsed list exists exactly when every item parses. Its k-th number is the k-th item's value. A failure reports the error of the first item that does not parse: every earlier item parsed. |
| Version.PadToThree | src/play.cpp:611 | Padding keeps the list as a prefix and appends zeros up to length 3. Lists of three or more are unchanged. |
| Version.VersionList | src/play.cpp:603-614 | `get_ver_list` succeeds exactly when every `getline` item is accepted by `stoi`. Its result has max(3, items) numbers: the items' values, then zeros. A failure is the exception (`invalid_argument` or `out_of_range`) of the first item `stoi` rejects. |
| Version.VersionListOfRendered | src/play.cpp:603-614 | Parsing a dotted rendering of non-negative 32-bit numbers gives back those numbers, zero-padded to three. |
| Version.ShortVersionIsPadded | src/play.cpp:611 | "1.2" reads as 1.2.0. |
| Version.EmptyVersionIsZero | src/play.cpp:605-613 | The empty version string yields no item and reads as 0.0.0. |
| Version.VersionScore | src/play.cpp:798-800 | Equal (major, minor, patch) triples score 0. With every component in 0..99 the score lies within ±999999, inside the int range. |
| Version.ScoreLeavesIntRange | src/play.cpp:798-800 | The weighted difference leaves the 32-bit int range: a major difference of 214748 still fits, one of 214749 does not. |
| Version.ScoreAgreesWithLexicographic | src/play.cpp:798-805 | While every component lies in 0..99, the weighted difference is non-negative exactly when (major, minor, patch) is lexicographically at least the minimum. |
| Version.ScoreDisagreesBeyondTwoDigits | src/play.cpp:798-801 | With a three-digit minor number the agreement fails: 1.100.0 scores equal to 2.0.0 and passes a 2.0.0 minimum. |
| Version.CheckVersionAsWritten | src/play.cpp:790-806 | The check as written can succeed only for an engine that is not ready. |
| Version.AsWrittenRejectsEveryStartedEngine | src/play.cpp:795-796 | As written, the check fails for every ready engine, whatever the versions. When both versions parse, the failure is the `engine not ready.` exit of the readiness guard. |
| Version.CheckVersion | src/play.cpp:790-806 | With the readiness guard corrected: the check passes exactly when the engine is ready, both versions parse, and the weighted difference is non-negative. It fails as too old exactly when the engine is ready, both parse, and the difference is negative. |
| Version.CheckVersionExamples | src/play.cpp:798-805 | A ready engine at 1.1.9 fails a 1.2.0 minimum as too old. One at 1.2.0 passes. |
| Tournament.Move | src/play.cpp:680-683 | `move()` adds one to the move number and changes nothing else. |
| Tournament.GenmoveCommand | src/play.cpp:680-683 | The command is `genmove b` exactly when black is to move, and `genmove w` exactly when white is. |
| Tournament.SetMove | src/play.cpp:685-703 | A rejected move changes nothing and returns false. An accepted move counts one move, flips the side to move and keeps winner and result. A pass adds one to the pass counter. A non-pass resignation raises the resignation flag, and black resigned exactly when the text names black. Any other move resets the pass counter. |
| Tournament.GameOver | src/play.cpp:705-709 | `checkGameEnd` holds exactly when a resignation was recorded, at least two passes came in a row, or more than 722 moves were made. The cap is the same on every board size. |
| Tournament.NextMove | src/play.cpp:711-717 | The turn is handed over exactly when the game is not over. Nothing but the side to move ever changes. |
| Tournament.SetMovesCount | src/play.cpp:719-722 | Resuming sets the move number and makes black to move exactly on even move numbers. Nothing else changes. |
| Tournament.NewGameTurnMatchesCount | src/play.cpp:630-634 | A fresh game has black to move on move 0 and is not over. |
| Tournament.SetMoveKeepsTurn | src/play.cpp:685-703 | `setMove` keeps "black to move iff the move number is even", whether or not the engine accepts. |
| Tournament.MoveThenNextKeepsTurn | src/play.cpp:680-717 | `move()` followed by a successful `nextMove()` keeps that same correspondence. |
| Tournament.NextMoveTwice | src/play.cpp:705-717 | Handing over does not end a game. Two hand-overs both succeed and restore the game. |
| Tournament.ReplayCounts | src/play.cpp:685-703 | After a run of `setMove` calls, the move number has grown by the number of accepted moves. The side to move has flipped once per accepted move, and winner and result are unchanged. |
| Tournament.ReplayPasses | src/play.cpp:692-700 | After a run of `setMove` calls, the pass counter is the number of trailing accepted passes since the last accepted ordinary move. Resignations and rejected moves are skipped. |
| Tournament.ReplayResignation | src/play.cpp:695-697 | After a run of `setMove` calls, the resignation flag is raised exactly when it already was or some accepted move was a resignation. |
| Tournament.GameOverAfterReplay | src/play.cpp:705-709 | After a run of `setMove` calls, `checkGameEnd` holds exactly when a resignation was already flagged or accepted, the run ends in more than one accepted pass in a row (counting passes before it), or the accepted moves take the move number past 722. |
| Tournament.DoublePassEndsGame | src/play.cpp:693-708 | Two accepted passes in a row end the game. |
| Tournament.ResignationEndsGame | src/play.cpp:695-708 | An accepted resignation ends the game, and it stays over whatever moves follow. |
| Tournament.Leading | src/play.cpp:741-745 | `m_result[0]` reads `W` or `B` exactly when the reply starts with that letter. An empty reply yields the terminating NUL, which matches neither. |
| Tournament.GetScore | src/play.cpp:724-755 | After a resignation the other colour wins, with result `W+Resign ` or `B+Resign `. Otherwise the `final_score` reply becomes the result. If the engine rejected the command, this is an error that carries the game with that reply already stored, and the winner untouched. A successful reply decides the winner: a leading `W` makes white the winner, a leading `B` black, anything else leaves the winner alone. It reports success exactly when a winner is set. |
| Tournament.GetWinner | src/play.cpp:757-762 | WHITE exactly for the winner "white", BLACK otherwise (also when no winner was found). |
| Tournament.ScoreThenWinner | src/play.cpp:724-762 | For a game without a winner, the reported colour is WHITE exactly when black resigned, or when there was no resignation and the score starts with `W`. A winner is found exactly when there was a resignation or the score starts with `W` or `B`. |
| SelfPlay.BlackPlyIsEven | src/play.cpp:501-558 | Black moves exactly at the even plies. |
| SelfPlay.NextTurnKeepsInvariant | src/play.cpp:517-558 | One continuing ply keeps the loop state equal to its ply-by-ply description: side to move, last-was-pass, the `me`/`other` swap, move text and commands sent. |
| SelfPlay.Loop | src/play.cpp:515-559 | The loop never runs past the 722-ply cap: a finished loop started before the cap plays at least one more ply, and an aborted one aborts at a ply below the cap. The move text and the commands sent only grow. |
| SelfPlay.LoopFrom | src/play.cpp:515-559 | From any ply whose state matches the description, the loop ends in one of two ways. It finishes after the first ply that ends the game or at the 722-ply cap, with one record entry per ply and the resignation result. Or it aborts at the first ply whose `genmove` or relayed `play` the engine rejects. |
| SelfPlay.RunLoop | src/play.cpp:499-559 | The loop as `selfplay` starts it, with black to move, the black engine as `me` and nothing written. A finished loop played 1 to 722 plies, and an aborted one aborted below the cap. |
| SelfPlay.RunLoopOutcome | src/play.cpp:499-559 | The whole loop, started with black to move and the black engine as `me`, is described ply by ply as above. |
| SelfPlay.LoopVerdict | src/play.cpp:515-559 | The whole loop aborts only at the first ply whose `genmove` or relayed `play` the engine rejects. It finishes at the first ply that ends the game, or at the cap, with every earlier ply continuing. |
| SelfPlay.ResignAtFirstPly | src/play.cpp:532-535 | A resignation as the first reply ends the game after one ply, with result `W+Resign`. |
| SelfPlay.PassPassEndsAfterTwo | src/play.cpp:537-542 | Two passes in a row end the game after exactly two plies, with the result left to `final_score`. |
| SelfPlay.SentRespectsRoles | src/play.cpp:548-556 | With two engines, n completed plies send 2n commands: every `genmove` for a colour goes to the engine started for that colour, and every relay goes to the other engine. With one engine, they send n commands, all to that engine. |
| SelfPlay.LoopRespectsRoles | src/play.cpp:517-556 | Every command of a finished game goes to the right engine. |
| SelfPlay.Entry | src/play.cpp:522-530 | One ply's entry is a node starting with `;`. It is six characters long, seven on every tenth ply, which also gets the line break. |
| SelfPlay.EntryLayout | src/play.cpp:522-530 | One ply's entry is `;`, then `B` exactly for black and `W` exactly for white, then `[`, the two-character point, `]`, and a line break exactly when the ply index is a multiple of 10. |
| SelfPlay.EntryCounts | src/play.cpp:522-530 | For an encodable position (a pass or resignation, or an on-board position of a board up to 26x26), one ply's entry holds one `;`, and holds a line break exactly when its ply index is a multiple of 10. Off-board positions are excluded because the source writes raw bytes for them, which may themselves be `;` or a line break. |
| SelfPlay.EntriesShape | src/play.cpp:521-530 | When every ply's position is encodable (a pass or resignation, or an on-board position of a board up to 26x26), the move text of n plies holds exactly n entries and ceil(n/10) line breaks. |
| SelfPlay.HeaderText | src/play.cpp:576-581 | The header opens the game tree and its root node with `(;` and ends with a line break. |
| SelfPlay.SgfHeader | src/play.cpp:576-581 | The header opens exactly one node, the root: its `;`s are that one and those inside the date and the result. |
| SelfPlay.SgfRecord | src/play.cpp:576-583 | The record is one game tree: it opens with `(;` and closes with `)` and a line break. Between the header and that close lies the move text, unchanged. |
| SelfPlay.RecordSemicolons | src/play.cpp:576-583 | The record adds exactly one node, the root, to those of the move text, besides any `;` inside the date and the result. |
| SelfPlay.RecordNodes | src/play.cpp:515-583 | For a date and result without `;` and encodable positions, the record of n plies holds exactly n + 1 nodes: the root and one per ply. |
| SelfPlay.Selfplay | src/play.cpp:453-583 | A run stops at start-up exactly when some engine in use did not start or refused the board size. The start-up exits are taken in the source's order, each reporting its own error: the black engine not started, then the white engine not started, then the black engine refusing a size other than 19, then the white engine refusing it. After start-up, a run aborts only at the first `genmove` or relayed `play` the engine rejects, with every earlier ply continuing. A finished run played 1 to 722 plies and stopped at the first ply that ends the game, or at the cap. |
| SelfPlay.PlayAndRecord | src/play.cpp:499-583 | Once both engines are ready, the loop aborts only at the first rejected `genmove` or relayed `play`. Otherwise it finishes after 1 to 722 plies, stopping at the first ply that ends the game or at the cap. |
| SelfPlay.FinishedLoop | src/play.cpp:515-564 | A finished loop played 1 to 722 plies and wrote one entry per ply. Its result is empty exactly when the last reply was not a resignation. |
| SelfPlay.Finish | src/play.cpp:562-583 | After the loop, the result is the resignation result when there is one, or else the `final_score` reply. The plies and commands are the loop's, and the record is assembled with that result and the loop's move text. |
| SelfPlay.FinishedRecord | src/play.cpp:562-583 | After a finished loop, the record holds exactly the plies played, and the result is the resignation result or else the `final_score` reply. |
| SelfPlay.SelfplayRecord | src/play.cpp:562-583 | A finished run's record holds the move text of exactly the plies played. Its result is the resignation result, or else the engine's `final_score` reply. |

## Left out

- `main` and option parsing are outside this model. `main`
  (src/play.cpp:185-191) calls only `selfplay`, `advisor` or `gtp`, and
  nothing in src/play.cpp creates a `Game`. The `Game` class therefore
  has no caller in this file, and the readiness bug under "## Findings"
  is latent here. The GTP process classes are also outside the model
  (`GtpProcess`, `GtpChoice`, `GtpState::send_command_sync`), as is the GUI
  (`go_window`). Their observable effects are inputs: `ok` flags, reply
  texts and the engine script.
- `text_to_move` is an engine call. The position it returns is part of
  the script, so the model does not check that it matches the reply
  text.
- `Game`'s `loadSgf`, `loadTraining`, `saveTraining`, `writeSgf`,
  `dumpTraining` and `dumpDebug` only forward a command and return the
  engine's `ok`. `gameQuit` sends `quit` and waits for the process to
  end. None of them holds bookkeeping.
- `gameStart` (src/play.cpp:637-651) returns nothing. It starts the
  engine process, exits with `cannot start leelaz.` when the engine is
  not ready, calls `checkVersion`, and sends the time settings. Starting
  the process and the time-settings command are left out. The readiness
  guard is the `ready` input of Version.CheckVersionAsWritten and
  Version.CheckVersion, and it is the context of the finding below.
- The console output (`cout`, `cerr`) is left out.
- Writing `selfplay.sgf` is left out: the record is returned as a
  string.
- Reading the clock and formatting the date is left out: the date is a
  parameter.
- The `clear_board` commands are left out, because their answers are
  never checked.
- The komi is the constant text `KM[7.5]` in the header. The unused
  float local is not modelled.
- The self-play loop's commands are recorded as values. The `boardsize`
  commands are represented only by whether each engine accepted them.
- Tournament.SetMove: `moveNum` and `passes` are unbounded integers, and
  the 32-bit overflow of `m_moveNum++` and `m_passes++` is not modelled.
  Nothing in `Game` prevents that overflow. `setMove` never consults
  `checkGameEnd`, and `setMovesCount` (src/play.cpp:719-722) accepts any
  int. Only callers that stop at `checkGameEnd` keep the counters small.
- Version.VersionScore: lines 798-800 are computed without 32-bit
  overflow, which C++ leaves undefined. The overflow is reachable with
  realistic inputs. A major difference of 214749 or more already
  overflows `* 10000` (Version.ScoreLeavesIntRange), and a minor
  difference of 21474837 or more overflows `* 100`. The sums can overflow
  earlier. A date-style major such as 20231015, checked against a small
  minimum major such as 0 or 1, overflows. While every
  component lies in 0..99 the score stays within ±999999, so the model
  and the source agree there.
- SelfPlay.Selfplay: requires a positive board size, as do Sgf.MoveToSgf
  and the loop. The model therefore promises nothing for a size of 0 or
  a negative size. `move_to_text_sgf` divides by the size only for a
  non-negative position. A game of size 0 whose every reply is a pass or
  a resignation is therefore defined in C++, and it is left out. So is
  any negative size, for which C++'s truncating `%` and `/` are defined.
  The source never checks the size it reads from the engine.
- Sgf.MoveToSgf: the letter-by-letter facts (column, inverted row) hold
  only while the board is at most 26 wide, so they are stated in the
  lemma Sgf.PointLetters rather than in the function's contract.

The ply cap is fixed whatever the board size: `361*2` plies in
`selfplay` (src/play.cpp:515) and `19 * 19 * 2` moves in `checkGameEnd`
(src/play.cpp:708).

## Findings

| source | as written | input that shows it | evidently intended | confidence | as-written member | corrected member |
|---|---|---|---|---|---|---|
| src/play.cpp:795-796 | `checkVersion` calls `error_exit("engine not ready.")` when `proc.isReady()` is true | any engine that started. `gameStart` (src/play.cpp:641-647) only reaches `checkVersion` after its guard has seen a ready engine, so every game start aborts | `if (!proc.isReady())`, as in `gameStart`'s own guard | high; not executed | Version.CheckVersionAsWritten (with Version.AsWrittenRejectsEveryStartedEngine) | Version.CheckVersion |

=== FILE: game.dfy ===
/** The tournament `Game` record of src/play.cpp: move counter, pass
    counter, resignation flags, side to move, winner and result string.
    The engine behind `proc` is not modelled: whether it accepted a command
    (`ok`) and what it answered are parameters. */
module Tournament {
  import opened Results
  import opened Text

  /** The fields of `Game` that its move and scoring logic reads and writes. */
  datatype Game = Game(
    moveNum: int,
    passes: int,
    resignation: bool,
    blackResigned: bool,
    blackToMove: bool,
    winner: string,
    result: string)

  /** The member initialisers of `Game`. */
  const NewGame: Game := Game(0, 0, false, false, true, "", "")

  /** The move cap of `checkGameEnd`, fixed at 19 * 19 * 2 whatever the board size. */
  const MoveCap: int := 19 * 19 * 2

  /** `Game::BLACK` and `Game::WHITE`. */
  const Black: int := 0
  const White: int := 1

  /** A state change together with the `bool` the member function returned. */
  datatype Step = Step(game: Game, accepted: bool)

  predicate IsPass(m: string) {
    Contains(m, "pass")
  }

  predicate IsResign(m: string) {
    !IsPass(m) && Contains(m, "resign")
  }

  /** `setMove(m)`: the move text is sent to the engine; if the engine
      rejects it nothing changes, otherwise the move is counted, the pass
      counter and resignation flags are updated from the text and the side
      to move flips. */
  function SetMove(g: Game, m: string, ok: bool): (s: Step)
    ensures !ok ==> s == Step(g, false)
    ensures ok ==> && s.accepted
                   && s.game.moveNum == g.moveNum + 1
                   && s.game.blackToMove == !g.blackToMove
                   && s.game.winner == g.winner
                   && s.game.result == g.result
    ensures ok && IsPass(m) ==>
              && s.game.passes == g.passes + 1
              && s.game.resignation == g.resignation
              && s.game.blackResigned == g.blackResigned
    ensures ok && IsResign(m) ==>
              && s.game.passes == g.passes
              && s.game.resignation
              && (s.game.blackResigned <==> Contains(m, "black"))
    ensures ok && !IsPass(m) && !IsResign(m) ==>
              && s.game.passes == 0
              && s.game.resignation == g.resignation
              && s.game.blackResigned == g.blackResigned
  {
    if !ok then Step(g, false)
    else
      var g1 := g.(moveNum := g.moveNum + 1);
      var g2 :=
        if Contains(m, "pass") then g1.(passes := g1.passes + 1)
        else if Contains(m, "resign") then
          g1.(resignation := true, blackResigned := Contains(m, "black"))
        else g1.(passes := 0);
      Step(g2.(blackToMove := !g2.blackToMove), true)
  }

  /** `checkGameEnd()`: the same fixed cap of 722 moves on every board
      size, and a game only ends after two passes in a row. */
  predicate GameOver(g: Game): (over: bool)
    ensures over <==> g.resignation || 2 <= g.passes || 723 <= g.moveNum
  {
    g.resignation || g.passes > 1 || g.moveNum > MoveCap
  }

  /** `nextMove()`: hands the turn over unless the game is over. */
  function NextMove(g: Game): (s: Step)
    ensures s.accepted <==> !GameOver(g)
    ensures GameOver(g) ==> s.game == g
    ensures !GameOver(g) ==> s.game.blackToMove == !g.blackToMove
    ensures s.game.(blackToMove := g.blackToMove) == g
  {
    if GameOver(g) then Step(g, false)
    else Step(g.(blackToMove := !g.blackToMove), true)
  }

  /** `setMovesCount(moves)`: resumes at a known move number. C++ `%`
      truncates toward zero, but whether the remainder is zero agrees with
      Dafny's `%` for every int. */
  function SetMovesCount(g: Game, moves: int): (r: Game)
    ensures TurnMatchesCount(r)
    ensures r.moveNum == moves
    ensures r.(moveNum := g.moveNum, blackToMove := g.blackToMove) == g
  {
    g.(moveNum := moves, blackToMove := moves % 2 == 0)
  }

  /** `move()`: counts the move the engine is asked to generate. */
  function Move(g: Game): (r: Game)
    ensures r.moveNum == g.moveNum + 1
    ensures r.(moveNum := g.moveNum) == g
  {
    g.(moveNum := g.moveNum + 1)
  }

  /** The `genmove` command `move()` sends for the side to move. */
  function GenmoveCommand(g: Game): (c: string)
    ensures c == "genmove b" <==> g.blackToMove
    ensures c == "genmove w" <==> !g.blackToMove
  {
    if g.blackToMove then "genmove b" else "genmove w"
  }

  /** Black is to move exactly on even move numbers. */
  predicate TurnMatchesCount(g: Game) {
    g.blackToMove <==> g.moveNum % 2 == 0
  }

  /** A fresh game starts with black to move on move 0. */
  lemma NewGameTurnMatchesCount()
    ensures TurnMatchesCount(NewGame) && !GameOver(NewGame)
  {
  }

  /** `setMove` keeps side to move and move number in step, whether the
      engine accepts the move or not. */
  lemma SetMoveKeepsTurn(g: Game, m: string, ok: bool)
    requires TurnMatchesCount(g)
    ensures TurnMatchesCount(SetMove(g, m, ok).game)
  {
  }

  /** `move()` followed by a successful `nextMove()` keeps them in step too. */
  lemma MoveThenNextKeepsTurn(g: Game)
    requires TurnMatchesCount(g)
    requires !GameOver(Move(g))
    ensures TurnMatchesCount(NextMove(Move(g)).game)
  {
  }

  /** Handing the turn over does not change whether the game is over, so
      two successful hand-overs restore the game. */
  lemma NextMoveTwice(g: Game)
    requires !GameOver(g)
    ensures NextMove(g).accepted && NextMove(NextMove(g).game).accepted
    ensures NextMove(NextMove(g).game).game == g
  {
  }

  // ---------------------------------------------------------------------
  // A sequence of `setMove` calls
  // ---------------------------------------------------------------------

  /** A move text sent with `setMove` and whether the engine accepted it. */
  datatype Submitted = Submitted(text: string, ok: bool)

  /** The game after `setMove` has been called with each entry in turn. */
  function Replay(g: Game, ms: seq<Submitted>): Game
    decreases |ms|
  {
    if |ms| == 0 then g
    else Replay(SetMove(g, ms[0].text, ms[0].ok).game, ms[1..])
  }

  function AcceptedCount(ms: seq<Submitted>): nat {
    if |ms| == 0 then 0
    else AcceptedCount(ms[..|ms| - 1]) + (if ms[|ms| - 1].ok then 1 else 0)
  }

  /** The pass counter a sequence of moves leaves, read from its end: each
      trailing accepted pass adds one, accepted resignations and rejected
      moves are skipped, and the latest accepted ordinary move stops the
      count (the counter was reset there); with no such move the count
      starts from `base`. */
  function TrailingPasses(base: int, ms: seq<Submitted>): int {
    if |ms| == 0 then base
    else
      var m := ms[|ms| - 1];
      var before := TrailingPasses(base, ms[..|ms| - 1]);
      if !m.ok then before
      else if IsPass(m.text) then before + 1
      else if IsResign(m.text) then before
      else 0
  }

  /** Some accepted move in `ms` is a resignation. */
  predicate SomeResignation(ms: seq<Submitted>) {
    exists k :: 0 <= k < |ms| && ms[k].ok && IsResign(ms[k].text)
  }

  lemma {:induction false} ReplaySnoc(g: Game, ms: seq<Submitted>, m: Submitted)
    ensures Replay(g, ms + [m]) == SetMove(Replay(g, ms), m.text, m.ok).game
    decreases |ms|
  {
    if |ms| > 0 {
      assert (ms + [m])[1..] == ms[1..] + [m];
      ReplaySnoc(SetMove(g, ms[0].text, ms[0].ok).game, ms[1..], m);
    }
  }

  /** What a run of `setMove` calls leaves behind: one move per accepted
      text and the side to move flipped once per accepted text; winner and
      result untouched. */
  lemma {:induction false} ReplayCounts(g: Game, ms: seq<Submitted>)
    ensures Replay(g, ms).moveNum == g.moveNum + AcceptedCount(ms)
    ensures Replay(g, ms).blackToMove == (g.blackToMove == (AcceptedCount(ms) % 2 == 0))
    ensures Replay(g, ms).winner == g.winner && Replay(g, ms).result == g.result
    decreases |ms|
  {
    if |ms| > 0 {
      var init := ms[..|ms| - 1];
      var m := ms[|ms| - 1];
      assert ms == init + [m];
      ReplaySnoc(g, init, m);
      ReplayCounts(g, init);
    }
  }

  /** The pass counter after a run of `setMove` calls is the trailing pass
      count of `TrailingPasses`. */
  lemma {:induction false} ReplayPasses(g: Game, ms: seq<Submitted>)
    ensures Replay(g, ms).passes == TrailingPasses(g.passes, ms)
    decreases |ms|
  {
    if |ms| > 0 {
      var init := ms[..|ms| - 1];
      var m := ms[|ms| - 1];
      assert ms == init + [m];
      ReplaySnoc(g, init, m);
      ReplayPasses(g, init);
    }
  }

  /** The resignation flag after a run of `setMove` calls is raised exactly
      when it was already raised or some accepted text resigned. */
  lemma {:induction false} ReplayResignation(g: Game, ms: seq<Submitted>)
    ensures Replay(g, ms).resignation <==> g.resignation || SomeResignation(ms)
    decreases |ms|
  {
    if |ms| > 0 {
      var init := ms[..|ms| - 1];
      var m := ms[|ms| - 1];
      assert ms == init + [m];
      ReplaySnoc(g, init, m);
      ReplayResignation(g, init);
      if SomeResignation(ms) && !SomeResignation(init) {
        var k :| 0 <= k < |ms| && ms[k].ok && IsResign(ms[k].text);
        assert k == |ms| - 1;
      }
      if SomeResignation(init) {
        var k :| 0 <= k < |init| && init[k].ok && IsResign(init[k].text);
        assert ms[k] == init[k];
      }
    }
  }

  /** `checkGameEnd` after a run of `setMove` calls, read off the run
      itself: the game is over exactly when a resignation was recorded
      before or during the run, more than one accepted pass trails the
      last accepted ordinary move, or the accepted moves push the move
      number past the cap. */
  lemma GameOverAfterReplay(g: Game, ms: seq<Submitted>)
    ensures GameOver(Replay(g, ms)) <==>
              || g.resignation
              || SomeResignation(ms)
              || TrailingPasses(g.passes, ms) > 1
              || g.moveNum + AcceptedCount(ms) > MoveCap
  {
    ReplayCounts(g, ms);
    ReplayPasses(g, ms);
    ReplayResignation(g, ms);
  }

  /** Two accepted passes in a row end the game, whatever came before. */
  lemma DoublePassEndsGame(g: Game, a: string, b: string)
    requires IsPass(a) && IsPass(b) && g.passes >= 0
    ensures GameOver(SetMove(SetMove(g, a, true).game, b, true).game)
  {
  }

  /** An accepted resignation ends the game, and the game stays over. */
  lemma ResignationEndsGame(g: Game, m: string, ms: seq<Submitted>)
    requires IsResign(m)
    ensures GameOver(Replay(SetMove(g, m, true).game, ms))
  {
    ReplayResignation(SetMove(g, m, true).game, ms);
  }

  // ---------------------------------------------------------------------
  // Scoring
  // ---------------------------------------------------------------------

  /** `final_score` was rejected: `error_exit` throws after the reply has
      already been stored in `m_result`, so the game it leaves behind is
      carried along. */
  datatype ScoreError = FinalScoreFailed(game: Game)

  /** The game after `getScore()` and the `bool` it returned. */
  datatype Scored = Scored(game: Game, found: bool)

  /** The first character of the reply as `m_result[0]` reads it: an empty
      string yields the terminating NUL. */
  function Leading(reply: string): (c: char)
    ensures c == 'W' <==> |reply| > 0 && reply[0] == 'W'
    ensures c == 'B' <==> |reply| > 0 && reply[0] == 'B'
  {
    if |reply| > 0 then reply[0] else '\0'
  }

  /** `getScore()`: a resignation decides the game for the other colour;
      otherwise the engine's `final_score` reply becomes the result and
      its leading `W` or `B` names the winner. `okScore` and `reply` are the
      engine's answer to `final_score`. */
  function GetScore(g: Game, okScore: bool, reply: string): (r: Result<Scored, ScoreError>)
    ensures g.resignation ==>
              && r.Success?
              && r.value.found
              && r.value.game == g.(winner := r.value.game.winner, result := r.value.game.result)
              && (r.value.game.winner == "white" <==> g.blackResigned)
              && (r.value.game.winner == "black" <==> !g.blackResigned)
              && r.value.game.result == (if g.blackResigned then "W+Resign " else "B+Resign ")
    ensures !g.resignation && !okScore ==> r == Failure(FinalScoreFailed(g.(result := reply)))
    ensures !g.resignation && okScore ==>
              && r.Success?
              && r.value.game == g.(winner := r.value.game.winner, result := reply)
              && (Leading(reply) == 'W' ==> r.value.game.winner == "white")
              && (Leading(reply) == 'B' ==> r.value.game.winner == "black")
              && (Leading(reply) != 'W' && Leading(reply) != 'B' ==> r.value.game.winner == g.winner)
    ensures r.Success? ==> (r.value.found <==> r.value.game.winner != "")
  {
    if g.resignation then
      if g.blackResigned then Success(Scored(g.(winner := "white", result := "W+Resign "), true))
      else Success(Scored(g.(winner := "black", result := "B+Resign "), true))
    else if !okScore then Failure(FinalScoreFailed(g.(result := reply)))
    else
      var w := if Leading(reply) == 'W' then "white"
               else if Leading(reply) == 'B' then "black"
               else g.winner;
      Success(Scored(g.(winner := w, result := reply), w != ""))
  }

  /** `getWinner()`: WHITE only for the winner "white", BLACK otherwise. */
  function GetWinner(g: Game): (c: int)
    ensures c == Black || c == White
    ensures c == White <==> g.winner == "white"
  {
    if g.winner == "white" then White else Black
  }

  /** Scoring a game that has no winner yet: the reported colour is WHITE
      exactly when black resigned or, without a resignation, when the
      score reply starts with `W`; when no winner was found, `getWinner`
      still reports BLACK. */
  lemma ScoreThenWinner(g: Game, okScore: bool, reply: string)
    requires g.winner == ""
    requires GetScore(g, okScore, reply).Success?
    ensures var s := GetScore(g, okScore, reply).value;
            && (GetWinner(s.game) == White <==>
                  (g.resignation && g.blackResigned) || (!g.resignation && Leading(reply) == 'W'))
            && (s.found <==> g.resignation || Leading(reply) == 'W' || Leading(reply) == 'B')
            && (!s.found ==> GetWinner(s.game) == Black)
  {
  }
}

=== FILE: results.dfy ===
/** Failure-carrying values used across the model: the source signals errors
    by throwing or by returning early, which the model turns into `Failure`. */
module Results {

  datatype Option<+T> = None | Some(value: T)

  datatype Result<+T, +E> = Success(value: T) | Failure(error: E)

}

=== FILE: selfplay.dfy ===
/** The self-play driver `selfplay` of src/play.cpp: one or two engines
    take turns generating moves until a resignation, a second consecutive
    pass or the ply cap; every ply is written into an SGF game record.
    Engines are not run: a script gives, for every ply, the `genmove`
    reply, the board position the reply parses to, and the peer engine's
    reply to the relayed `play` command. */
module SelfPlay {
  import opened Results
  import opened Text
  import opened Sgf

  /** The loop bound `361*2`, fixed whatever the board size. */
  const PlyCap: nat := 361 * 2

  /** The two `GtpChoice` objects, named after the colour they start with. */
  datatype EngineId = BlackEngine | WhiteEngine

  /** An engine's answer to one command: the `ok` flag and the reply text. */
  datatype Reply = Reply(ok: bool, text: string)

  /** What the engines do at one ply: the mover's reply to `genmove`, the
      position `text_to_move` parses it to, and the peer's reply to the
      `play` command relaying the move (unused with a single engine). */
  datatype Ply = Ply(genmove: Reply, pos: int, play: Reply)

  /** The engines' behaviour, ply by ply. */
  type Script = nat -> Ply

  /** The commands the loop sends: `genmove b|w`, and `play b|w <vertex>`. */
  datatype Command =
    | Genmove(to: EngineId, black: bool)
    | Play(to: EngineId, black: bool, vertex: string)

  /** The `runtime_error`s the loop throws, with the ply they happen at. */
  datatype LoopError = GenmoveFailed(ply: nat) | PlayFailed(ply: nat)

  /** The loop's local state: `black_to_move`, `last_is_pass`, the `me`
      and `other` pointers, the SGF move text so far, and the commands sent
      so far. */
  datatype Turn = Turn(
    blackToMove: bool,
    lastIsPass: bool,
    me: EngineId,
    other: Option<EngineId>,
    moves: string,
    sent: seq<Command>)

  /** How the loop ended: plies played, the result string (empty unless a
      resignation decided it), the SGF move text and the commands sent. */
  datatype LoopEnd = LoopEnd(plies: nat, result: string, moves: string, sent: seq<Command>)

  /** The state before the first ply: black to move, the black engine is
      `me`, and the white engine is `other` only when there is one. */
  function Start(twoEngines: bool): Turn {
    Turn(true, false, BlackEngine, if twoEngines then Some(WhiteEngine) else None, "", [])
  }

  /** The SGF text of one ply: `;B[xy]` or `;W[xy]`, followed by a newline
      when the ply index is a multiple of 10. */
  function Entry(black: bool, pos: int, size: int, index: nat): (e: string)
    requires size > 0
    ensures |e| == (if index % 10 == 0 then 7 else 6)
    ensures e[0] == ';'
  {
    (if black then ";B[" else ";W[") + MoveToSgf(pos, size) + "]"
    + (if index % 10 == 0 then "\n" else "")
  }

  /** An entry is one SGF node `;B[xy]` or `;W[xy]` naming the mover's
      colour and the point, six characters long, plus the line break of
      every tenth ply. */
  lemma EntryLayout(black: bool, pos: int, size: int, index: nat)
    requires size > 0
    ensures var e := Entry(black, pos, size, index);
            && |e| == (if index % 10 == 0 then 7 else 6)
            && e[0] == ';' && e[2] == '[' && e[5] == ']'
            && (e[1] == 'B' <==> black)
            && (e[1] == 'W' <==> !black)
            && e[3..5] == MoveToSgf(pos, size)
            && (index % 10 == 0 ==> e[6] == '\n')
  {
  }

  /** The `for (move_count = 0; move_count < 361*2; move_count++)` loop
      of `selfplay`, from ply `i` on. */
  function Loop(script: Script, size: int, i: nat, t: Turn): (r: Result<LoopEnd, LoopError>)
    requires size > 0 && i <= PlyCap
    ensures r.Success? ==> if i == PlyCap then r.value.plies == i else i < r.value.plies <= PlyCap
    ensures r.Failure? ==> i <= r.error.ply < PlyCap
    ensures r.Success? ==> t.moves <= r.value.moves && t.sent <= r.value.sent
    decreases PlyCap - i
  {
    if i == PlyCap then Success(LoopEnd(i, "", t.moves, t.sent))
    else
      var p := script(i);
      var sent := t.sent + [Genmove(t.me, t.blackToMove)];
      if !p.genmove.ok then Failure(GenmoveFailed(i))
      else
        var vtx := p.genmove.text;
        var moves := t.moves + Entry(t.blackToMove, p.pos, size, i);
        if vtx == "resign" then
          Success(LoopEnd(i + 1, if t.blackToMove then "W+Resign" else "B+Resign", moves, sent))
        else if vtx == "pass" && t.lastIsPass then
          Success(LoopEnd(i + 1, "", moves, sent))
        else
          var lastIsPass := vtx == "pass";
          match t.other
          case None =>
            Loop(script, size, i + 1, Turn(!t.blackToMove, lastIsPass, t.me, None, moves, sent))
          case Some(o) =>
            if !p.play.ok then Failure(PlayFailed(i))
            else
              Loop(script, size, i + 1,
                   Turn(!t.blackToMove, lastIsPass, o, Some(t.me), moves,
                        sent + [Play(o, t.blackToMove, vtx)]))
  }

  // ---------------------------------------------------------------------
  // The loop described ply by ply
  // ---------------------------------------------------------------------

  function Vertex(script: Script, j: nat): string {
    script(j).genmove.text
  }

  /** Ply `j` ends the game: a resignation, or a pass right after a pass. */
  predicate Ends(script: Script, j: nat) {
    || Vertex(script, j) == "resign"
    || (Vertex(script, j) == "pass" && j > 0 && Vertex(script, j - 1) == "pass")
  }

  /** Ply `j` is played to completion and the game goes on. */
  predicate Continues(script: Script, twoEngines: bool, j: nat) {
    script(j).genmove.ok && !Ends(script, j) && (twoEngines ==> script(j).play.ok)
  }

  /** Black moves at ply 0 and at every other ply after it. */
  function BlackPly(j: nat): bool {
    if j == 0 then true else !BlackPly(j - 1)
  }

  /** Black's plies are the even ones. */
  lemma {:induction false} BlackPlyIsEven(j: nat)
    ensures BlackPly(j) <==> j % 2 == 0
  {
    if j > 0 {
      BlackPlyIsEven(j - 1);
    }
  }

  /** The engine asked for the move at ply `j`: with two engines they take
      turns starting with the black engine; a single engine plays both sides. */
  function Mover(twoEngines: bool, j: nat): EngineId {
    if twoEngines && !BlackPly(j) then WhiteEngine else BlackEngine
  }

  /** The SGF move text of the first `n` plies; black plays the even plies. */
  function Entries(script: Script, size: int, n: nat): string
    requires size > 0
  {
    if n == 0 then ""
    else Entries(script, size, n - 1) + Entry(BlackPly(n - 1), script(n - 1).pos, size, n - 1)
  }

  /** The commands of the first `n` completed plies: a `genmove` to the
      mover, then, with two engines, the relay of its move to the peer. */
  function Sent(script: Script, twoEngines: bool, n: nat): seq<Command> {
    if n == 0 then []
    else
      var j := n - 1;
      Sent(script, twoEngines, j) + [Genmove(Mover(twoEngines, j), BlackPly(j))]
      + (if twoEngines then [Play(Mover(twoEngines, n), BlackPly(j), Vertex(script, j))] else [])
  }

  /** The result a resignation at ply `j` gives: the other colour wins. */
  function ResignResult(j: nat): string {
    if BlackPly(j) then "W+Resign" else "B+Resign"
  }

  /** The loop state at the start of ply `i`, described without the loop. */
  predicate Invariant(script: Script, size: int, twoEngines: bool, i: nat, t: Turn)
    requires size > 0
  {
    && t.blackToMove == BlackPly(i)
    && t.lastIsPass == (i > 0 && Vertex(script, i - 1) == "pass")
    && t.me == Mover(twoEngines, i)
    && t.other == (if twoEngines then Some(Mover(twoEngines, i + 1)) else None)
    && t.moves == Entries(script, size, i)
    && t.sent == Sent(script, twoEngines, i)
  }

  /** A game that ran to its end `e`, described ply by ply: every ply
      before the last continued; the last one ended the game or was ply
      722 of the cap; the move text holds one entry per ply played; the
      result names the winner of a resignation and is empty otherwise;
      the commands are those of the completed plies plus, when the last
      ply ended the game, its `genmove`, which is never relayed. */
  predicate FinishedAt(script: Script, size: int, twoEngines: bool, e: LoopEnd)
    requires size > 0
  {
    && 1 <= e.plies <= PlyCap
    && var last := e.plies - 1;
       && (forall k :: 0 <= k < last ==> Continues(script, twoEngines, k))
       && script(last).genmove.ok
       && (Ends(script, last) || (e.plies == PlyCap && Continues(script, twoEngines, last)))
       && e.moves == Entries(script, size, e.plies)
       && e.result == (if Vertex(script, last) == "resign" then ResignResult(last) else "")
       && e.sent == (if Ends(script, last)
                     then Sent(script, twoEngines, last) + [Genmove(Mover(twoEngines, last), BlackPly(last))]
                     else Sent(script, twoEngines, e.plies))
  }

  /** A game aborted by `err`: every earlier ply continued, and at the
      failing ply the mover rejected `genmove`, or the peer rejected the
      relayed move of a ply that did not end the game. */
  predicate FailedAt(script: Script, twoEngines: bool, err: LoopError) {
    && err.ply < PlyCap
    && (forall k :: 0 <= k < err.ply ==> Continues(script, twoEngines, k))
    && match err
       case GenmoveFailed(j) => !script(j).genmove.ok
       case PlayFailed(j) =>
         twoEngines && script(j).genmove.ok && !Ends(script, j) && !script(j).play.ok
  }

  predicate Describes(script: Script, size: int, twoEngines: bool, r: Result<LoopEnd, LoopError>)
    requires size > 0
  {
    match r
    case Success(e) => FinishedAt(script, size, twoEngines, e)
    case Failure(err) => FailedAt(script, twoEngines, err)
  }

  lemma EndsAtPly(script: Script, size: int, twoEngines: bool, i: nat, t: Turn)
    requires size > 0 && i < PlyCap
    requires Invariant(script, size, twoEngines, i, t)
    requires forall k :: 0 <= k < i ==> Continues(script, twoEngines, k)
    requires script(i).genmove.ok
    requires Vertex(script, i) == "resign" || (Vertex(script, i) == "pass" && t.lastIsPass)
    ensures Describes(script, size, twoEngines, Loop(script, size, i, t))
  {
    var e := Loop(script, size, i, t).value;
    assert Ends(script, i);
    assert e.moves == Entries(script, size, i + 1);
  }

  lemma AbortsAtPly(script: Script, size: int, twoEngines: bool, i: nat, t: Turn)
    requires size > 0 && i < PlyCap
    requires Invariant(script, size, twoEngines, i, t)
    requires forall k :: 0 <= k < i ==> Continues(script, twoEngines, k)
    requires || !script(i).genmove.ok
             || (&& Vertex(script, i) != "resign"
                 && !(Vertex(script, i) == "pass" && t.lastIsPass)
                 && twoEngines && !script(i).play.ok)
    ensures Describes(script, size, twoEngines, Loop(script, size, i, t))
  {
    if script(i).genmove.ok {
      assert !Ends(script, i);
    }
  }

  lemma CapReached(script: Script, size: int, twoEngines: bool, t: Turn)
    requires size > 0
    requires Invariant(script, size, twoEngines, PlyCap, t)
    requires forall k :: 0 <= k < PlyCap ==> Continues(script, twoEngines, k)
    ensures Describes(script, size, twoEngines, Loop(script, size, PlyCap, t))
  {
    assert Continues(script, twoEngines, PlyCap - 1);
  }

  /** The state the loop moves on with after ply `i` continues. */
  function NextTurn(script: Script, size: int, i: nat, t: Turn): Turn
    requires size > 0
  {
    var p := script(i);
    var vtx := p.genmove.text;
    var moves := t.moves + Entry(t.blackToMove, p.pos, size, i);
    var sent := t.sent + [Genmove(t.me, t.blackToMove)];
    match t.other
    case None => Turn(!t.blackToMove, vtx == "pass", t.me, None, moves, sent)
    case Some(o) => Turn(!t.blackToMove, vtx == "pass", o, Some(t.me), moves,
                         sent + [Play(o, t.blackToMove, vtx)])
  }

  lemma NextTurnKeepsInvariant(script: Script, size: int, twoEngines: bool, i: nat, t: Turn)
    requires size > 0 && i < PlyCap
    requires Invariant(script, size, twoEngines, i, t)
    ensures Invariant(script, size, twoEngines, i + 1, NextTurn(script, size, i, t))
  {
    NextTurnMoves(script, size, i, t);
    NextTurnSent(script, size, twoEngines, i, t);
    NextTurnRoles(script, size, twoEngines, i, t);
  }

  lemma NextTurnRoles(script: Script, size: int, twoEngines: bool, i: nat, t: Turn)
    requires size > 0
    requires t.blackToMove == BlackPly(i)
    requires t.me == Mover(twoEngines, i)
    requires t.other == (if twoEngines then Some(Mover(twoEngines, i + 1)) else None)
    ensures var t' := NextTurn(script, size, i, t);
            && t'.blackToMove == BlackPly(i + 1)
            && t'.lastIsPass == (Vertex(script, i) == "pass")
            && t'.me == Mover(twoEngines, i + 1)
            && t'.other == (if twoEngines then Some(Mover(twoEngines, i + 2)) else None)
  {
  }

  lemma NextTurnMoves(script: Script, size: int, i: nat, t: Turn)
    requires size > 0
    requires t.blackToMove == BlackPly(i)
    requires t.moves == Entries(script, size, i)
    ensures NextTurn(script, size, i, t).moves == Entries(script, size, i + 1)
  {
  }

  lemma NextTurnSent(script: Script, size: int, twoEngines: bool, i: nat, t: Turn)
    requires size > 0
    requires t.blackToMove == BlackPly(i)
    requires t.me == Mover(twoEngines, i)
    requires t.other == (if twoEngines then Some(Mover(twoEngines, i + 1)) else None)
    requires t.sent == Sent(script, twoEngines, i)
    ensures NextTurn(script, size, i, t).sent == Sent(script, twoEngines, i + 1)
  {
    var g := [Genmove(Mover(twoEngines, i), BlackPly(i))];
    if twoEngines {
      var rel := [Play(Mover(twoEngines, i + 1), BlackPly(i), Vertex(script, i))];
      assert NextTurn(script, size, i, t).sent == t.sent + g + rel;
    } else {
      assert NextTurn(script, size, i, t).sent == t.sent + g;
    }
  }

  lemma ContinuesSteps(script: Script, size: int, twoEngines: bool, i: nat, t: Turn)
    requires size > 0 && i < PlyCap
    requires Invariant(script, size, twoEngines, i, t)
    requires Continues(script, twoEngines, i)
    ensures Loop(script, size, i, t) == Loop(script, size, i + 1, NextTurn(script, size, i, t))
  {
  }

  /** What the loop returns from ply `i` on is described ply by ply: see
      `FinishedAt` and `FailedAt`. */
  lemma {:induction false} LoopFrom(script: Script, size: int, twoEngines: bool, i: nat, t: Turn)
    requires size > 0 && i <= PlyCap
    requires Invariant(script, size, twoEngines, i, t)
    requires forall k :: 0 <= k < i ==> Continues(script, twoEngines, k)
    ensures Describes(script, size, twoEngines, Loop(script, size, i, t))
    decreases PlyCap - i
  {
    if i == PlyCap {
      CapReached(script, size, twoEngines, t);
    } else if !script(i).genmove.ok {
      AbortsAtPly(script, size, twoEngines, i, t);
    } else if Vertex(script, i) == "resign" || (Vertex(script, i) == "pass" && t.lastIsPass) {
      EndsAtPly(script, size, twoEngines, i, t);
    } else if twoEngines && !script(i).play.ok {
      AbortsAtPly(script, size, twoEngines, i, t);
    } else {
      assert Continues(script, twoEngines, i);
      ContinuesSteps(script, size, twoEngines, i, t);
      NextTurnKeepsInvariant(script, size, twoEngines, i, t);
      LoopFrom(script, size, twoEngines, i + 1, NextTurn(script, size, i, t));
    }
  }

  /** The loop as `selfplay` starts it. */
  function RunLoop(script: Script, size: int, twoEngines: bool): (r: Result<LoopEnd, LoopError>)
    requires size > 0
    ensures r.Success? ==> 1 <= r.value.plies <= PlyCap
    ensures r.Failure? ==> r.error.ply < PlyCap
  {
    Loop(script, size, 0, Start(twoEngines))
  }

  /** The whole game is described ply by ply: it stops at the first ply
      that does not continue, after at most `PlyCap` plies. */
  lemma RunLoopOutcome(script: Script, size: int, twoEngines: bool)
    requires size > 0
    ensures Describes(script, size, twoEngines, RunLoop(script, size, twoEngines))
  {
    assert Invariant(script, size, twoEngines, 0, Start(twoEngines));
    LoopFrom(script, size, twoEngines, 0, Start(twoEngines));
  }

  /** Why the whole loop stopped: it aborts only at a rejected `genmove`
      or relayed `play`, and it finishes at the first ply that ends the
      game or at the cap. */
  lemma LoopVerdict(script: Script, size: int, twoEngines: bool)
    requires size > 0
    ensures var r := RunLoop(script, size, twoEngines);
            && (r.Failure? ==> FailedAt(script, twoEngines, r.error))
            && (r.Success? ==>
                  && (forall k :: 0 <= k < r.value.plies - 1 ==> Continues(script, twoEngines, k))
                  && (Ends(script, r.value.plies - 1) || r.value.plies == PlyCap))
  {
    RunLoopOutcome(script, size, twoEngines);
  }

  /** A resignation as the very first reply ends the game after one ply,
      won by white. */
  lemma ResignAtFirstPly(script: Script, size: int, twoEngines: bool)
    requires size > 0
    requires script(0).genmove == Reply(true, "resign")
    ensures RunLoop(script, size, twoEngines).Success?
    ensures RunLoop(script, size, twoEngines).value.plies == 1
    ensures RunLoop(script, size, twoEngines).value.result == "W+Resign"
  {
  }

  /** Engines that pass twice end the game after exactly two plies, and
      the result is left to `final_score`. */
  lemma PassPassEndsAfterTwo(script: Script, size: int, twoEngines: bool)
    requires size > 0
    requires script(0).genmove == Reply(true, "pass") && script(1).genmove == Reply(true, "pass")
    requires twoEngines ==> script(0).play.ok
    ensures RunLoop(script, size, twoEngines).Success?
    ensures RunLoop(script, size, twoEngines).value.plies == 2
    ensures RunLoop(script, size, twoEngines).value.result == ""
  {
    RunLoopOutcome(script, size, twoEngines);
    assert Continues(script, twoEngines, 0);
    assert Ends(script, 1);
  }

  // ---------------------------------------------------------------------
  // Engine roles
  // ---------------------------------------------------------------------

  /** Each command goes to the right engine: with two engines, every
      `genmove` for a colour goes to the engine started for that colour and
      every relayed `play` to the other one; with a single engine all
      `genmove`s go to it and nothing is relayed. */
  predicate RolesRespected(sent: seq<Command>, twoEngines: bool) {
    forall k :: 0 <= k < |sent| ==>
      match sent[k]
      case Genmove(to, black) => to == (if twoEngines && !black then WhiteEngine else BlackEngine)
      case Play(to, black, _) => twoEngines && to == (if black then WhiteEngine else BlackEngine)
  }

  lemma {:induction false} SentRespectsRoles(script: Script, twoEngines: bool, n: nat)
    ensures RolesRespected(Sent(script, twoEngines, n), twoEngines)
    ensures |Sent(script, twoEngines, n)| == if twoEngines then 2 * n else n
  {
    if n > 0 {
      SentRespectsRoles(script, twoEngines, n - 1);
    }
  }

  /** Every command of a finished game respects the engines' roles, so the
      `me`/`other` swap happens exactly when a second engine is present. */
  lemma LoopRespectsRoles(script: Script, size: int, twoEngines: bool)
    requires size > 0
    requires RunLoop(script, size, twoEngines).Success?
    ensures RolesRespected(RunLoop(script, size, twoEngines).value.sent, twoEngines)
  {
    var e := RunLoop(script, size, twoEngines).value;
    FinishedSent(script, size, twoEngines);
    var last := e.plies - 1;
    if Ends(script, last) {
      SentRespectsRoles(script, twoEngines, last);
      var g := Genmove(Mover(twoEngines, last), BlackPly(last));
      assert RolesRespected([g], twoEngines);
      RolesSnoc(Sent(script, twoEngines, last), g, twoEngines);
    } else {
      SentRespectsRoles(script, twoEngines, e.plies);
    }
  }

  lemma RolesSnoc(sent: seq<Command>, c: Command, twoEngines: bool)
    requires RolesRespected(sent, twoEngines) && RolesRespected([c], twoEngines)
    ensures RolesRespected(sent + [c], twoEngines)
  {
    assert forall k :: 0 <= k < |sent| ==> (sent + [c])[k] == sent[k];
    assert (sent + [c])[|sent|] == [c][0];
  }

  /** The commands of a finished loop, as `FinishedAt` describes them. */
  lemma FinishedSent(script: Script, size: int, twoEngines: bool)
    requires size > 0
    requires RunLoop(script, size, twoEngines).Success?
    ensures var e := RunLoop(script, size, twoEngines).value;
            && e.plies >= 1
            && e.sent == (if Ends(script, e.plies - 1)
                          then Sent(script, twoEngines, e.plies - 1)
                               + [Genmove(Mover(twoEngines, e.plies - 1), BlackPly(e.plies - 1))]
                          else Sent(script, twoEngines, e.plies))
  {
    RunLoopOutcome(script, size, twoEngines);
  }

  // ---------------------------------------------------------------------
  // Shape of the move text
  // ---------------------------------------------------------------------

  /** How many times `c` occurs in `s`. */
  function Count(s: string, c: char): nat {
    if |s| == 0 then 0 else Count(s[..|s| - 1], c) + (if s[|s| - 1] == c then 1 else 0)
  }

  lemma {:induction false} CountAppend(a: string, b: string, c: char)
    ensures Count(a + b, c) == Count(a, c) + Count(b, c)
    decreases |b|
  {
    if |b| == 0 {
      assert a + b == a;
    } else {
      assert (a + b)[..|a + b| - 1] == a + b[..|b| - 1];
      assert (a + b)[|a + b| - 1] == b[|b| - 1];
      CountAppend(a, b[..|b| - 1], c);
    }
  }

  lemma CountOne(x: char, c: char)
    ensures Count([x], c) == (if x == c then 1 else 0)
  {
    assert [x][..0] == [];
  }

  lemma CountPair(x: char, y: char, c: char)
    ensures Count([x, y], c) == (if x == c then 1 else 0) + (if y == c then 1 else 0)
  {
    assert [x, y][..1] == [x];
    CountOne(x, c);
  }

  lemma CountTriple(x: char, y: char, z: char, c: char)
    ensures Count([x, y, z], c) == (if x == c then 1 else 0) + (if y == c then 1 else 0) + (if z == c then 1 else 0)
  {
    assert [x, y, z][..2] == [x, y];
    CountPair(x, y, c);
  }

  /** A position the encoder writes as two lower-case letters. */
  predicate Encodable(pos: int, size: int) {
    pos < 0 || (pos < size * size && size <= 26)
  }

  /** An entry holds one `;`, and a line break exactly when its ply
      index is a multiple of 10. */
  lemma EntryCounts(black: bool, pos: int, size: int, index: nat, c: char)
    requires size > 0 && Encodable(pos, size)
    requires c == ';' || c == '\n'
    ensures Count(Entry(black, pos, size, index), c)
            == (if c == ';' then 1 else if index % 10 == 0 then 1 else 0)
  {
    var xy := MoveToSgf(pos, size);
    if pos >= 0 {
      PointLetters(pos, size);
    }
    var head := if black then ";B[" else ";W[";
    var tail := if index % 10 == 0 then "\n" else "";
    CountTriple(';', head[1], '[', c);
    assert head == [';', head[1], '['];
    CountPair(xy[0], xy[1], c);
    assert xy == [xy[0], xy[1]];
    CountOne(']', c);
    CountOne('\n', c);
    assert tail == [] || tail == ['\n'];
    assert tail == [] ==> Count(tail, c) == 0;
    CountAppend(head, xy, c);
    CountAppend(head + xy, "]", c);
    CountAppend(head + xy + "]", tail, c);
  }

  lemma LineBreakCount(m: nat)
    ensures (m + 9) / 10 + (if m % 10 == 0 then 1 else 0) == (m + 10) / 10
  {
  }

  /** The move text of `n` plies holds exactly `n` entries (one `;` each)
      and a line break after every ply whose index is a multiple of 10. */
  lemma {:induction false} EntriesShape(script: Script, size: int, n: nat)
    requires size > 0
    requires forall j :: 0 <= j < n ==> Encodable(script(j).pos, size)
    ensures Count(Entries(script, size, n), ';') == n
    ensures Count(Entries(script, size, n), '\n') == (n + 9) / 10
  {
    if n > 0 {
      var m := n - 1;
      assert Encodable(script(m).pos, size);
      EntriesShape(script, size, m);
      EntriesStep(script, size, m);
      LineBreakCount(m);
    }
  }

  /** One more ply adds one `;`, and a line break on every tenth ply. */
  lemma EntriesStep(script: Script, size: int, m: nat)
    requires size > 0 && Encodable(script(m).pos, size)
    ensures Count(Entries(script, size, m + 1), ';') == Count(Entries(script, size, m), ';') + 1
    ensures Count(Entries(script, size, m + 1), '\n')
            == Count(Entries(script, size, m), '\n') + (if m % 10 == 0 then 1 else 0)
  {
    var prev := Entries(script, size, m);
    var e := Entry(BlackPly(m), script(m).pos, size, m);
    assert Entries(script, size, m + 1) == prev + e;
    EntryCounts(BlackPly(m), script(m).pos, size, m, ';');
    EntryCounts(BlackPly(m), script(m).pos, size, m, '\n');
    CountAppend(prev, e, ';');
    CountAppend(prev, e, '\n');
  }

  // ---------------------------------------------------------------------
  // The game record and the whole run
  // ---------------------------------------------------------------------

  /** A string without `c` holds no `c`. */
  lemma {:induction false} CountAbsent(s: string, c: char)
    requires c !in s
    ensures Count(s, c) == 0
  {
    if |s| > 0 {
      assert s[..|s| - 1][..] == s[..|s| - 1];
      assert forall k :: 0 <= k < |s| - 1 ==> s[..|s| - 1][k] == s[k];
      CountAbsent(s[..|s| - 1], c);
    }
  }

  lemma DecimalHasNoSemicolon(i: int)
    ensures ';' !in IntToDecimal(i)
  {
    var d := IntToDecimal(i);
    if i < 0 {
      assert d == [d[0]] + d[1..];
      assert forall k :: 1 <= k < |d| ==> d[k] == d[1..][k - 1];
    }
  }

  /** The header text around its three variable fields: date, board size
      and result. */
  function HeaderText(date: string, sz: string, result: string): (h: string)
    ensures |h| >= 3 && h[..2] == "(;" && h[|h| - 1] == '\n'
  {
    "(;" + "GM[1]FF[4]RU[Chinese]DT[" + date + "]SZ[" + sz + "]KM[7.5]RE[" + result + "]\n"
  }

  lemma HeaderSemicolons(date: string, sz: string, result: string)
    requires ';' !in sz
    ensures Count(HeaderText(date, sz, result), ';') == 1 + Count(date, ';') + Count(result, ';')
  {
    var p0, l1, l2, l3, l4 := "(;", "GM[1]FF[4]RU[Chinese]DT[", "]SZ[", "]KM[7.5]RE[", "]\n";
    CountPair('(', ';', ';');
    CountAbsent(l1, ';');
    CountAbsent(l2, ';');
    CountAbsent(sz, ';');
    CountAbsent(l3, ';');
    CountAbsent(l4, ';');
    var s1 := p0 + l1;
    var s2 := s1 + date;
    var s3 := s2 + l2;
    var s4 := s3 + sz;
    var s5 := s4 + l3;
    var s6 := s5 + result;
    CountAppend(p0, l1, ';');
    CountAppend(s1, date, ';');
    CountAppend(s2, l2, ';');
    CountAppend(s3, sz, ';');
    CountAppend(s4, l3, ';');
    CountAppend(s5, result, ';');
    CountAppend(s6, l4, ';');
  }

  /** The record header: properties GM, FF, RU, DT, SZ, KM and RE, then a
      line break. It opens the game tree and its root node, the only `;`
      it adds to those inside the date and the result. */
  function SgfHeader(date: string, size: int, result: string): (h: string)
    ensures Count(h, ';') == 1 + Count(date, ';') + Count(result, ';')
  {
    DecimalHasNoSemicolon(size);
    HeaderSemicolons(date, IntToDecimal(size), result);
    HeaderText(date, IntToDecimal(size), result)
  }

  /** The game record `selfplay` writes: the header, the move text, and
      the closing parenthesis with a final line break. */
  function SgfRecord(date: string, size: int, result: string, moves: string): (r: string)
    ensures |r| == |SgfHeader(date, size, result)| + |moves| + 2
    ensures r[..2] == "(;" && r[|r| - 2..] == ")\n"
    ensures r[|SgfHeader(date, size, result)|..|r| - 2] == moves
  {
    var h := SgfHeader(date, size, result);
    var r := h + moves + ")\n";
    assert r[..2] == h[..2];
    assert r[|h|..|r| - 2] == moves;
    r
  }

  /** The record's nodes are the root node and those of the move text:
      besides the `;`s inside the date and the result, the record adds
      exactly one. */
  lemma RecordSemicolons(date: string, size: int, result: string, moves: string)
    ensures Count(SgfRecord(date, size, result, moves), ';')
            == 1 + Count(date, ';') + Count(result, ';') + Count(moves, ';')
  {
    var h := SgfHeader(date, size, result);
    CountAppend(h, moves, ';');
    CountPair(')', '\n', ';');
    CountAppend(h + moves, ")\n", ';');
  }

  /** The record of `n` plies holds `n + 1` nodes, the root node and one
      per ply, as long as the date and the result hold no `;` and every
      position is one the encoder writes as two letters. */
  lemma RecordNodes(script: Script, size: int, n: nat, date: string, result: string)
    requires size > 0
    requires ';' !in date && ';' !in result
    requires forall j :: 0 <= j < n ==> Encodable(script(j).pos, size)
    ensures Count(SgfRecord(date, size, result, Entries(script, size, n)), ';') == n + 1
  {
    CountAbsent(date, ';');
    CountAbsent(result, ';');
    EntriesShape(script, size, n);
    RecordSemicolons(date, size, result, Entries(script, size, n));
  }

  /** The run's configuration and the engines' answers before the first
      ply: whether a second engine is used, whether each engine started,
      the requested board size, whether each engine accepted it, and the
      board size the black engine reports. */
  datatype Setup = Setup(
    twoEngines: bool,
    blackReady: bool,
    whiteReady: bool,
    optSize: int,
    blackSizeOk: bool,
    whiteSizeOk: bool,
    boardSize: int)

  /** Every engine in use started and accepted the requested board size
      (the size is only sent when it is not 19). */
  predicate Passed(setup: Setup) {
    && setup.blackReady
    && (setup.twoEngines ==> setup.whiteReady)
    && (setup.optSize != 19 ==> setup.blackSizeOk)
    && (setup.optSize != 19 && setup.twoEngines ==> setup.whiteSizeOk)
  }

  /** Why `selfplay` gave up: an engine did not start or refused the board
      size (it returns -1), or the loop threw. */
  datatype SelfplayError =
    | CannotStartPlayer1
    | CannotStartPlayer2
    | Player1SizeUnsupported
    | Player2SizeUnsupported
    | Aborted(cause: LoopError)

  /** A finished self-play game: plies played, result, the record written
      to `selfplay.sgf`, and the commands the loop sent. */
  datatype Outcome = Outcome(plies: nat, result: string, record: string, sent: seq<Command>)

  /** `selfplay`: start-up checks, the turn loop, `final_score` from the
      black engine when no resignation decided the game (its reply is
      `finalScore`), and the SGF record dated `date`. */
  function Selfplay(setup: Setup, script: Script, finalScore: string, date: string)
    : (r: Result<Outcome, SelfplayError>)
    requires setup.boardSize > 0
    ensures r.Success? ==> Passed(setup)
    ensures Passed(setup) ==> r.Success? || r.error.Aborted?
    ensures r.Failure? && r.error.Aborted? ==> Passed(setup)
    ensures !setup.blackReady ==> r == Failure(CannotStartPlayer1)
    ensures setup.blackReady && setup.twoEngines && !setup.whiteReady ==>
              r == Failure(CannotStartPlayer2)
    ensures && setup.blackReady && (setup.twoEngines ==> setup.whiteReady)
            && setup.optSize != 19 && !setup.blackSizeOk ==>
              r == Failure(Player1SizeUnsupported)
    ensures && setup.blackReady && (setup.twoEngines ==> setup.whiteReady)
            && setup.optSize != 19 && setup.blackSizeOk
            && setup.twoEngines && !setup.whiteSizeOk ==>
              r == Failure(Player2SizeUnsupported)
    ensures r.Success? ==> 1 <= r.value.plies <= PlyCap
    ensures r.Failure? && r.error.Aborted? ==> FailedAt(script, setup.twoEngines, r.error.cause)
    ensures r.Success? ==>
              && (forall k :: 0 <= k < r.value.plies - 1 ==> Continues(script, setup.twoEngines, k))
              && (Ends(script, r.value.plies - 1) || r.value.plies == PlyCap)
  {
    if !setup.blackReady then Failure(CannotStartPlayer1)
    else if setup.twoEngines && !setup.whiteReady then Failure(CannotStartPlayer2)
    else if setup.optSize != 19 && !setup.blackSizeOk then Failure(Player1SizeUnsupported)
    else if setup.optSize != 19 && setup.twoEngines && !setup.whiteSizeOk then Failure(Player2SizeUnsupported)
    else
      match PlayAndRecord(script, setup.boardSize, setup.twoEngines, finalScore, date)
      case Failure(e) => Failure(Aborted(e))
      case Success(o) => Success(o)
  }

  /** `selfplay` once both engines are ready: the turn loop, then the
      result and the record. It aborts only at a rejected `genmove` or
      relayed `play`, and it finishes at the first ply that ends the game
      or at the cap. */
  function PlayAndRecord(script: Script, size: int, twoEngines: bool, finalScore: string, date: string)
    : (r: Result<Outcome, LoopError>)
    requires size > 0
    ensures r.Success? ==> 1 <= r.value.plies <= PlyCap
    ensures r.Failure? ==> FailedAt(script, twoEngines, r.error)
    ensures r.Success? ==>
              && (forall k :: 0 <= k < r.value.plies - 1 ==> Continues(script, twoEngines, k))
              && (Ends(script, r.value.plies - 1) || r.value.plies == PlyCap)
  {
    var run := RunLoop(script, size, twoEngines);
    LoopVerdict(script, size, twoEngines);
    if run.Failure? then Failure(run.error)
    else
      var o := Finish(run.value, size, finalScore, date);
      assert o.plies == run.value.plies;
      Success(o)
  }

  /** After the loop: the result falls back to the `final_score` reply
      when no resignation decided the game, and the record is written. */
  function Finish(e: LoopEnd, size: int, finalScore: string, date: string): (o: Outcome)
    ensures o.plies == e.plies && o.sent == e.sent
    ensures e.result != "" ==> o.result == e.result
    ensures e.result == "" ==> o.result == finalScore
    ensures o.record == SgfRecord(date, size, o.result, e.moves)
  {
    var result := if e.result == "" then finalScore else e.result;
    Outcome(e.plies, result, SgfRecord(date, size, result, e.moves), e.sent)
  }

  /** The facts about a finished loop that the whole run reports. */
  lemma FinishedLoop(script: Script, size: int, twoEngines: bool)
    requires size > 0
    requires RunLoop(script, size, twoEngines).Success?
    ensures var e := RunLoop(script, size, twoEngines).value;
            && 1 <= e.plies <= PlyCap
            && e.moves == Entries(script, size, e.plies)
            && e.result == (if Vertex(script, e.plies - 1) == "resign" then ResignResult(e.plies - 1) else "")
            && (e.result == "" <==> Vertex(script, e.plies - 1) != "resign")
  {
    RunLoopOutcome(script, size, twoEngines);
  }

  /** A finished run's record holds the move text of exactly the plies
      played, and its result is the resignation result or else the
      engine's `final_score` reply. */
  lemma SelfplayRecord(setup: Setup, script: Script, finalScore: string, date: string)
    requires setup.boardSize > 0
    requires Selfplay(setup, script, finalScore, date).Success?
    ensures RecordOf(Selfplay(setup, script, finalScore, date).value,
                     script, setup.boardSize, finalScore, date)
  {
    SelfplayFinishes(setup, script, finalScore, date);
    FinishedRecord(script, setup.boardSize, setup.twoEngines, finalScore, date);
    var o := Selfplay(setup, script, finalScore, date).value;
    var f := Finish(RunLoop(script, setup.boardSize, setup.twoEngines).value, setup.boardSize, finalScore, date);
    assert o == f;
  }

  /** The record holds exactly the plies played, and the result is the
      resignation result or else the `final_score` reply. */
  predicate RecordOf(o: Outcome, script: Script, size: int, finalScore: string, date: string)
    requires size > 0 && o.plies >= 1
  {
    && o.record == SgfRecord(date, size, o.result, Entries(script, size, o.plies))
    && o.result == (if Vertex(script, o.plies - 1) == "resign"
                    then ResignResult(o.plies - 1) else finalScore)
  }

  /** What `Finish` makes of a finished loop. */
  lemma FinishedRecord(script: Script, size: int, twoEngines: bool, finalScore: string, date: string)
    requires size > 0
    requires RunLoop(script, size, twoEngines).Success?
    ensures RecordOf(Finish(RunLoop(script, size, twoEngines).value, size, finalScore, date),
                     script, size, finalScore, date)
  {
    FinishedLoop(script, size, twoEngines);
  }

  /** A finished run is the loop's end put through `Finish`. */
  lemma SelfplayFinishes(setup: Setup, script: Script, finalScore: string, date: string)
    requires setup.boardSize > 0
    requires Selfplay(setup, script, finalScore, date).Success?
    ensures RunLoop(script, setup.boardSize, setup.twoEngines).Success?
    ensures Selfplay(setup, script, finalScore, date)
            == Success(Finish(RunLoop(script, setup.boardSize, setup.twoEngines).value,
                              setup.boardSize, finalScore, date))
  {
  }
}

=== FILE: sgf.dfy ===
/** The SGF point encoding of `move_to_text_sgf` (src/play.cpp): a board
    position is written as a column letter followed by a row letter, rows
    counted from the far edge, as in the Go part (GM[1]) of SGF FF[4]; every
    negative position (pass or resign) is written `tt`, the FF[4] pass
    encoding for boards up to 19x19. */
module Sgf {
  import opened Results

  /** `static_cast<char>` of an int followed by appending the byte: the
      conversion keeps the one byte value congruent to `v` modulo 256. */
  function ByteChar(v: int): (c: char)
    ensures 0 <= c as int < 256
    ensures (c as int - v) % 256 == 0
  {
    (v % 256) as char
  }

  /** The `k`-th lower-case letter (`'a'` for 0), for k below the size. */
  predicate IsCoordinate(c: char, size: int) {
    'a' as int <= c as int < 'a' as int + size
  }

  function Coordinate(c: char): int {
    c as int - 'a' as int
  }

  /** `move_to_text_sgf(pos, bdsize)`. */
  function MoveToSgf(pos: int, size: int): (r: string)
    requires size > 0
    ensures |r| == 2
    ensures pos < 0 ==> r == "tt"
  {
    if pos < 0 then "tt"
    else
      var column := pos % size;
      var row := size - pos / size - 1;
      [ByteChar('a' as int + column), ByteChar('a' as int + row)]
  }

  /** On a board of up to 26x26, a board position is written as its column
      letter followed by its row letter counted from the far edge, both
      among the first `size` letters. */
  lemma PointLetters(pos: int, size: int)
    requires 0 < size <= 26 && 0 <= pos < size * size
    ensures var r := MoveToSgf(pos, size);
            && IsCoordinate(r[0], size) && IsCoordinate(r[1], size)
            && Coordinate(r[0]) == pos % size
            && Coordinate(r[1]) == size - 1 - pos / size
  {
    RowInRange(pos, size);
    var column, row := pos % size, size - pos / size - 1;
    assert 0 <= column < size && 0 <= row < size;
    ByteOfLetter(column);
    ByteOfLetter(row);
    assert MoveToSgf(pos, size) == [ByteChar('a' as int + column), ByteChar('a' as int + row)];
  }

  /** A letter among the first 26 survives the byte conversion unchanged. */
  lemma ByteOfLetter(k: int)
    requires 0 <= k < 26
    ensures ByteChar('a' as int + k) as int == 'a' as int + k
  {
  }

  lemma RowInRange(pos: int, size: int)
    requires size > 0 && 0 <= pos
    ensures pos < size * size ==> 0 <= pos / size < size
  {
    var q := pos / size;
    assert pos == q * size + pos % size;
    assert q >= size ==> q * size >= size * size;
  }

  /** Reads a two-letter SGF point back into a board position; anything
      else, `tt` on boards up to 19x19 included, is not a board point. */
  function SgfToPos(s: string, size: int): Option<int>
    requires size > 0
  {
    if |s| == 2 && IsCoordinate(s[0], size) && IsCoordinate(s[1], size) then
      Some((size - 1 - Coordinate(s[1])) * size + Coordinate(s[0]))
    else None
  }

  lemma DivModOf(q: int, c: int, n: int)
    requires n > 0 && 0 <= c < n
    ensures (q * n + c) / n == q && (q * n + c) % n == c
  {
    var x := q * n + c;
    var d := x / n - q;
    assert x == (x / n) * n + x % n;
    assert d * n == c - x % n;
    assert d >= 1 ==> d * n >= n;
    assert d <= -1 ==> d * n <= -n;
  }

  /** Decoding recovers every on-board position of a board up to 26x26. */
  lemma EncodeThenDecode(pos: int, size: int)
    requires 0 < size <= 26 && 0 <= pos < size * size
    ensures SgfToPos(MoveToSgf(pos, size), size) == Some(pos)
  {
    var s := MoveToSgf(pos, size);
    PointLetters(pos, size);
    var q := pos / size;
    assert pos == q * size + pos % size;
    assert size - 1 - Coordinate(s[1]) == q;
    assert SgfToPos(s, size) == Some(q * size + Coordinate(s[0]));
  }

  /** Every string the decoder accepts is the encoding of the position it
      names, and that position lies on the board. */
  lemma DecodeThenEncode(s: string, size: int)
    requires 0 < size <= 26
    requires SgfToPos(s, size).Some?
    ensures 0 <= SgfToPos(s, size).value < size * size
    ensures MoveToSgf(SgfToPos(s, size).value, size) == s
  {
    var c := Coordinate(s[0]);
    var q := size - 1 - Coordinate(s[1]);
    var p := q * size + c;
    assert p == SgfToPos(s, size).value;
    OnBoard(q, c, size);
    DivModOf(q, c, size);
    var r := MoveToSgf(p, size);
    assert r[0] as int == s[0] as int;
    assert r[1] as int == s[1] as int;
    assert r == [r[0], r[1]] && s == [s[0], s[1]];
  }

  lemma OnBoard(q: int, c: int, n: int)
    requires 0 <= q < n && 0 <= c < n
    ensures 0 <= q * n + c < n * n
  {
    assert q * n <= (n - 1) * n;
  }

  /** Distinct board positions get distinct SGF points. */
  lemma EncodeInjective(p: int, q: int, size: int)
    requires 0 < size <= 26
    requires 0 <= p < size * size && 0 <= q < size * size
    ensures MoveToSgf(p, size) == MoveToSgf(q, size) <==> p == q
  {
    EncodeThenDecode(p, size);
    EncodeThenDecode(q, size);
  }

  /** Up to 19x19 the pass encoding `tt` never names a board point. */
  lemma PassIsNotAPoint(pos: int, size: int)
    requires 0 < size <= 19 && 0 <= pos < size * size
    ensures MoveToSgf(pos, size) != "tt"
  {
    PointLetters(pos, size);
  }

  /** From 20x20 on, `tt` is also the encoding of the point in column 20 on
      the row that the inversion maps to letter `t`, so a pass and that
      point read the same. */
  lemma PassCollidesOnLargeBoards(size: int)
    requires 20 <= size <= 26
    ensures 0 <= (size - 20) * size + 19 < size * size
    ensures MoveToSgf((size - 20) * size + 19, size) == "tt"
  {
    var pos := (size - 20) * size + 19;
    DivModOf(size - 20, 19, size);
    var s := MoveToSgf(pos, size);
    assert s[0] == 't' && s[1] == 't';
  }

  /** The corner position 0 of a 19x19 board is written `as`. */
  lemma CornerOf19x19()
    ensures MoveToSgf(0, 19) == "as"
  {
  }
}

=== FILE: text.dfy ===
/** String helpers the game driver relies on from the C++ standard library:
    `std::string::find`, splitting a stream with `std::getline`,
    `std::to_string` and `std::stoi`. */
module Text {
  import opened Results

  /** A decimal digit character. */
  predicate IsDigit(c: char) {
    '0' <= c <= '9'
  }

  predicate AllDigits(s: string) {
    forall k :: 0 <= k < |s| ==> IsDigit(s[k])
  }

  function DigitValue(c: char): nat
    requires IsDigit(c)
  {
    (c as int - '0' as int) as nat
  }

  function DigitChar(d: nat): (c: char)
    requires d < 10
    ensures IsDigit(c) && DigitValue(c) == d
  {
    ('0' as int + d) as char
  }

  // ---------------------------------------------------------------------
  // Substring search: `s.find(sub) != string::npos`
  // ---------------------------------------------------------------------

  /** `sub` occurs in `s` starting at index `i`. */
  predicate OccursAt(s: string, sub: string, i: int) {
    0 <= i && i + |sub| <= |s| && s[i..i + |sub|] == sub
  }

  /** The search `std::string::find` performs: try every start position in
      turn. The empty string is found at position 0. */
  function Contains(s: string, sub: string): (found: bool)
    ensures sub <= s ==> found
    ensures found ==> |sub| <= |s|
    decreases |s|
  {
    if sub <= s then true
    else if |s| == 0 then false
    else Contains(s[1..], sub)
  }

  /** The scan finds `sub` exactly when it occurs somewhere in `s`. */
  lemma {:induction false} ContainsIffOccurs(s: string, sub: string)
    ensures Contains(s, sub) <==> exists i :: OccursAt(s, sub, i)
    decreases |s|
  {
    if sub <= s {
      assert s[0..|sub|] == sub;
      assert OccursAt(s, sub, 0);
    } else if |s| == 0 {
    } else {
      assert !OccursAt(s, sub, 0);
      ContainsIffOccurs(s[1..], sub);
      if exists i :: OccursAt(s[1..], sub, i) {
        var i :| OccursAt(s[1..], sub, i);
        assert s[i + 1..i + 1 + |sub|] == s[1..][i..i + |sub|];
        assert OccursAt(s, sub, i + 1);
      }
      if exists i :: OccursAt(s, sub, i) {
        var i :| OccursAt(s, sub, i);
        assert s[1..][i - 1..i - 1 + |sub|] == s[i..i + |sub|];
        assert OccursAt(s[1..], sub, i - 1);
      }
    }
  }

  // ---------------------------------------------------------------------
  // Splitting on a separator, and `std::getline` item extraction
  // ---------------------------------------------------------------------

  /** Pieces joined back together with the separator between them. */
  function JoinWith(pieces: seq<string>, sep: char): string
    requires |pieces| >= 1
  {
    if |pieces| == 1 then pieces[0]
    else pieces[0] + [sep] + JoinWith(pieces[1..], sep)
  }

  /** Every maximal separator-free run of `s`, including empty ones: `k`
      separators give `k + 1` pieces. */
  function SplitOn(s: string, sep: char): (pieces: seq<string>)
    ensures |pieces| >= 1
    ensures forall k :: 0 <= k < |pieces| ==> sep !in pieces[k]
    ensures JoinWith(pieces, sep) == s
    decreases |s|
  {
    if |s| == 0 then [""]
    else
      var rest := SplitOn(s[1..], sep);
      if s[0] == sep then
        assert ([""] + rest)[1..] == rest;
        [""] + rest
      else
        var first := [s[0]] + rest[0];
        var r := [first] + rest[1..];
        assert r[1..] == rest[1..];
        assert |rest| > 1 ==> JoinWith(rest, sep) == rest[0] + [sep] + JoinWith(rest[1..], sep);
        assert s == [s[0]] + s[1..];
        r
  }

  lemma {:induction false} SplitOnSeparatorFree(a: string, sep: char)
    requires sep !in a
    ensures SplitOn(a, sep) == [a]
    decreases |a|
  {
    if |a| > 0 {
      SplitOnSeparatorFree(a[1..], sep);
      assert [a[0]] + a[1..] == a;
    }
  }

  lemma {:induction false} SplitOnAfterPiece(a: string, sep: char, b: string)
    requires sep !in a
    ensures SplitOn(a + [sep] + b, sep) == [a] + SplitOn(b, sep)
    decreases |a|
  {
    var s := a + [sep] + b;
    if |a| == 0 {
      assert s[0] == sep && s[1..] == b;
    } else {
      assert s[0] == a[0];
      assert s[1..] == a[1..] + [sep] + b;
      SplitOnAfterPiece(a[1..], sep, b);
      assert [a[0]] + a[1..] == a;
    }
  }

  /** Splitting undoes joining, for pieces that do not hold the separator. */
  lemma {:induction false} SplitJoin(pieces: seq<string>, sep: char)
    requires |pieces| >= 1
    requires forall k :: 0 <= k < |pieces| ==> sep !in pieces[k]
    ensures SplitOn(JoinWith(pieces, sep), sep) == pieces
    decreases |pieces|
  {
    if |pieces| == 1 {
      SplitOnSeparatorFree(pieces[0], sep);
    } else {
      SplitJoin(pieces[1..], sep);
      SplitOnAfterPiece(pieces[0], sep, JoinWith(pieces[1..], sep));
      assert [pieces[0]] + pieces[1..] == pieces;
    }
  }

  /** The items successive `std::getline(ss, item, sep)` calls extract
      before the stream fails: every piece of the split, except that a final
      empty piece (an empty input, or one ending in the separator) is never
      extracted, because getline fails when it reads nothing at all. */
  function GetlineItems(s: string, sep: char): (items: seq<string>)
    ensures |SplitOn(s, sep)| - 1 <= |items| <= |SplitOn(s, sep)|
    ensures items == SplitOn(s, sep)[..|items|]
    ensures |items| < |SplitOn(s, sep)| <==> SplitOn(s, sep)[|SplitOn(s, sep)| - 1] == ""
  {
    var pieces := SplitOn(s, sep);
    if pieces[|pieces| - 1] == "" then pieces[..|pieces| - 1] else pieces
  }

  // ---------------------------------------------------------------------
  // Decimal numerals: `std::to_string` and the digit value of a numeral
  // ---------------------------------------------------------------------

  /** The value of a string of decimal digits, most significant first. */
  function DecimalValue(d: string): nat
    requires AllDigits(d)
  {
    if |d| == 0 then 0
    else DecimalValue(d[..|d| - 1]) * 10 + DigitValue(d[|d| - 1])
  }

  /** The canonical decimal numeral of `n` (no sign, no leading zeros). */
  function NatToDecimal(n: nat): (d: string)
    ensures |d| >= 1 && AllDigits(d)
    ensures |d| > 1 ==> d[0] != '0'
    ensures DecimalValue(d) == n
  {
    if n < 10 then [DigitChar(n)]
    else
      var d := NatToDecimal(n / 10) + [DigitChar(n % 10)];
      assert d[..|d| - 1] == NatToDecimal(n / 10);
      d
  }

  /** `std::to_string` of an int: a minus sign before negative values. */
  function IntToDecimal(i: int): (d: string)
    ensures |d| >= 1
    ensures i < 0 <==> d[0] == '-'
    ensures i >= 0 ==> AllDigits(d) && DecimalValue(d) == i
    ensures i < 0 ==> AllDigits(d[1..]) && DecimalValue(d[1..]) == -i
    ensures i >= 0 && |d| > 1 ==> d[0] != '0'
    ensures i < 0 ==> |d| >= 2 && d[1] != '0'
  {
    if i < 0 then
      var d := "-" + NatToDecimal(-i);
      assert d[1..] == NatToDecimal(-i);
      d
    else NatToDecimal(i)
  }

  // ---------------------------------------------------------------------
  // `std::stoi`: the base-10 `strtol` scan, narrowed to a 32-bit int
  // ---------------------------------------------------------------------

  const IntMin: int := -0x8000_0000
  const IntMax: int := 0x7FFF_FFFF

  /** The two exceptions `std::stoi` throws. */
  datatype StoiError = InvalidArgument | OutOfRange

  /** The C locale's `isspace`. */
  predicate IsSpace(c: char) {
    c == ' ' || c == '\t' || c == '\n' || c == '\U{0B}' || c == '\U{0C}' || c == '\r'
  }

  function SkipSpace(s: string): (t: string)
    ensures |t| <= |s| && t == s[|s| - |t|..]
    ensures |t| > 0 ==> !IsSpace(t[0])
    ensures (forall k :: 0 <= k < |s| ==> !IsSpace(s[k])) ==> t == s
  {
    if |s| > 0 && IsSpace(s[0]) then SkipSpace(s[1..]) else s
  }

  /** The longest prefix of `s` made of digits. */
  function LeadingDigits(s: string): (d: string)
    ensures d <= s && AllDigits(d)
    ensures |d| < |s| ==> !IsDigit(s[|d|])
  {
    if |s| > 0 && IsDigit(s[0]) then
      var d := [s[0]] + LeadingDigits(s[1..]);
      assert forall k :: 1 <= k < |d| ==> d[k] == LeadingDigits(s[1..])[k - 1];
      d
    else ""
  }

  /** `std::stoi(s)`: leading white space, an optional sign, then as many
      digits as follow; no digit at all is `invalid_argument`, a value
      outside the 32-bit int range is `out_of_range`. Trailing characters
      after the digits are ignored. */
  function StringToInt(s: string): (r: Result<int, StoiError>)
    ensures r.Success? ==> IntMin <= r.value <= IntMax
  {
    ReadSigned(SkipSpace(s))
  }

  /** A string without any digit is `invalid_argument`, whatever signs or
      white space it holds. */
  lemma NoDigitIsInvalid(s: string)
    requires forall k :: 0 <= k < |s| ==> !IsDigit(s[k])
    ensures StringToInt(s) == Failure(InvalidArgument)
  {
    var t := SkipSpace(s);
    assert forall k :: 0 <= k < |t| ==> t[k] == s[|s| - |t| + k];
  }

  /** The part of `stoi` after the white space: an optional sign and the
      digits that follow it. */
  function ReadSigned(t: string): (r: Result<int, StoiError>)
    ensures r.Success? ==> IntMin <= r.value <= IntMax
    ensures (forall k :: 0 <= k < |t| ==> !IsDigit(t[k])) ==> r == Failure(InvalidArgument)
  {
    var negative := |t| > 0 && t[0] == '-';
    var u := if |t| > 0 && (t[0] == '+' || t[0] == '-') then t[1..] else t;
    var d := LeadingDigits(u);
    if |d| == 0 then Failure(InvalidArgument)
    else
      assert u[0] == t[|t| - |u|];
      Narrow(if negative then -(DecimalValue(d) as int) else DecimalValue(d))
  }

  /** The `long` that `strtol` read, narrowed to `int`: out of range fails. */
  function Narrow(v: int): (r: Result<int, StoiError>)
    ensures r.Success? <==> IntMin <= v <= IntMax
    ensures r.Success? ==> r.value == v
    ensures r.Failure? ==> r.error == OutOfRange
  {
    if v < IntMin || v > IntMax then Failure(OutOfRange) else Success(v)
  }

  lemma {:induction false} LeadingDigitsOfDigits(d: string)
    requires AllDigits(d)
    ensures LeadingDigits(d) == d
    decreases |d|
  {
    if |d| > 0 {
      LeadingDigitsOfDigits(d[1..]);
      assert [d[0]] + d[1..] == d;
    }
  }

  /** On a plain digit string `stoi` yields the string's decimal value. */
  lemma StringToIntOfDigits(d: string)
    requires |d| >= 1 && AllDigits(d)
    ensures DecimalValue(d) <= IntMax ==> StringToInt(d) == Success(DecimalValue(d))
    ensures DecimalValue(d) > IntMax ==> StringToInt(d) == Failure(OutOfRange)
  {
    assert !IsSpace(d[0]);
    assert SkipSpace(d) == d;
    ReadUnsigned(d, "");
    assert d + "" == d;
  }

  /** `stoi` reads back every 32-bit int that `to_string` writes. */
  lemma StringToIntOfDecimal(i: int)
    requires IntMin <= i <= IntMax
    ensures StringToInt(IntToDecimal(i)) == Success(i)
  {
    var d := IntToDecimal(i);
    assert !IsSpace(d[0]);
    assert SkipSpace(d) == d;
    if i < 0 {
      LeadingDigitsOfDigits(d[1..]);
    } else {
      assert d[0] != '+' && d[0] != '-';
      LeadingDigitsOfDigits(d);
    }
  }

  /** Leading white space is skipped. */
  lemma StringToIntSkipsSpace(c: char, s: string)
    requires IsSpace(c)
    ensures StringToInt([c] + s) == StringToInt(s)
  {
    assert ([c] + s)[1..] == s;
    assert SkipSpace([c] + s) == SkipSpace(s);
  }

  lemma {:induction false} LeadingDigitsBeforeStop(d: string, rest: string)
    requires AllDigits(d)
    requires |rest| > 0 ==> !IsDigit(rest[0])
    ensures LeadingDigits(d + rest) == d
    decreases |d|
  {
    if |d| > 0 {
      assert (d + rest)[1..] == d[1..] + rest;
      LeadingDigitsBeforeStop(d[1..], rest);
      assert [d[0]] + d[1..] == d;
    } else {
      assert d + rest == rest;
    }
  }

  /** A run of digits with no sign before it reads as its decimal value. */
  lemma ReadUnsigned(d: string, rest: string)
    requires |d| >= 1 && AllDigits(d)
    requires |rest| > 0 ==> !IsDigit(rest[0])
    ensures ReadSigned(d + rest) == Narrow(DecimalValue(d))
  {
    var t := d + rest;
    assert t[0] == d[0] && t[0] != '+' && t[0] != '-';
    LeadingDigitsBeforeStop(d, rest);
  }

  /** Whatever follows the digits is ignored: "12abc" and "1.5" read like
      "12" and "1". */
  lemma StringToIntIgnoresTrailing(d: string, rest: string)
    requires |d| >= 1 && AllDigits(d)
    requires |rest| > 0 ==> !IsDigit(rest[0])
    ensures StringToInt(d + rest) == StringToInt(d)
  {
    var s := d + rest;
    assert s[0] == d[0] && !IsSpace(d[0]);
    assert SkipSpace(s) == s && SkipSpace(d) == d;
    ReadUnsigned(d, rest);
    ReadUnsigned(d, "");
    assert d + "" == d;
  }
}

=== FILE: version.dfy ===
/** The engine version check of the tournament `Game` (src/play.cpp):
    `get_ver_list` turns a dotted version string into numbers, and
    `checkVersion` compares the engine's version with a required minimum
    through one weighted difference. */
module Version {
  import opened Results
  import opened Text

  datatype VersionError =
    | BadComponent(cause: StoiError)  // `stoi` threw on a dot-separated item
    | EngineNotReady                  // the readiness guard fired
    | TooOld                          // the engine's version is below the minimum

  /** `e` is the error of the first item `parse` rejects: some item fails
      with `e`, and every item before it parses. */
  predicate FirstFailure(items: seq<string>, parse: string -> Result<int, StoiError>, e: StoiError) {
    exists k :: && 0 <= k < |items|
                && parse(items[k]) == Failure(e)
                && forall j :: 0 <= j < k ==> parse(items[j]).Success?
  }

  /** `parse` (`stoi` in the source) applied to each item in order; the
      first item it fails on aborts the whole list. */
  function ParseComponents(items: seq<string>, parse: string -> Result<int, StoiError>)
    : (r: Result<seq<int>, StoiError>)
    ensures r.Success? <==> forall k :: 0 <= k < |items| ==> parse(items[k]).Success?
    ensures r.Success? ==>
              && |r.value| == |items|
              && forall k :: 0 <= k < |items| ==> parse(items[k]) == Success(r.value[k])
    ensures r.Failure? ==> FirstFailure(items, parse, r.error)
  {
    if |items| == 0 then Success([])
    else
      var head := parse(items[0]);
      if head.Failure? then Failure(head.error)
      else
        var rest := ParseComponents(items[1..], parse);
        if rest.Failure? then
          var k :| && 0 <= k < |items[1..]|
                   && parse(items[1..][k]) == Failure(rest.error)
                   && forall j :: 0 <= j < k ==> parse(items[1..][j]).Success?;
          assert forall j :: 1 <= j < k + 1 ==> items[j] == items[1..][j - 1];
          assert parse(items[k + 1]) == Failure(rest.error);
          Failure(rest.error)
        else
          var r := [head.value] + rest.value;
          assert forall k :: 1 <= k < |items| ==> items[k] == items[1..][k - 1] && r[k] == rest.value[k - 1];
          Success(r)
  }

  /** The `while (ver_list.size() < 3) ver_list.push_back(0)` loop. */
  function PadToThree(xs: seq<int>): (r: seq<int>)
    ensures |r| == if |xs| >= 3 then |xs| else 3
    ensures r[..|xs|] == xs
    ensures forall k :: |xs| <= k < |r| ==> r[k] == 0
    decreases 3 - |xs|
  {
    if |xs| < 3 then
      var r := PadToThree(xs + [0]);
      assert r[..|xs|] == r[..|xs| + 1][..|xs|];
      r
    else xs
  }

  /** `get_ver_list(ver)`: the `getline` items of `ver` split on '.', each
      read with `stoi`, then zero-padded to at least three numbers. */
  function VersionList(ver: string): (r: Result<seq<int>, StoiError>)
    ensures var items := GetlineItems(ver, '.');
            r.Success? <==> forall k :: 0 <= k < |items| ==> StringToInt(items[k]).Success?
    ensures var items := GetlineItems(ver, '.');
            r.Success? ==>
              && |r.value| >= 3
              && |r.value| == (if |items| >= 3 then |items| else 3)
              && (forall k :: 0 <= k < |items| ==> StringToInt(items[k]) == Success(r.value[k]))
              && (forall k :: |items| <= k < |r.value| ==> r.value[k] == 0)
    ensures r.Failure? ==> FirstFailure(GetlineItems(ver, '.'), StringToInt, r.error)
  {
    var items := GetlineItems(ver, '.');
    match ParseComponents(items, StringToInt)
    case Failure(e) => Failure(e)
    case Success(vs) =>
      PaddedValues(items, vs);
      Success(PadToThree(vs))
  }

  /** Padding keeps every parsed value in its place. */
  lemma PaddedValues(items: seq<string>, vs: seq<int>)
    requires |vs| == |items|
    requires forall k :: 0 <= k < |items| ==> StringToInt(items[k]) == Success(vs[k])
    ensures forall k :: 0 <= k < |items| ==> StringToInt(items[k]) == Success(PadToThree(vs)[k])
  {
    var r := PadToThree(vs);
    assert forall k :: 0 <= k < |vs| ==> r[k] == r[..|vs|][k];
  }

  /** The version string `a.b.c...` written with `to_string`. */
  function Render(parts: seq<int>): (ver: string)
    requires |parts| >= 1
  {
    JoinWith(RenderParts(parts), '.')
  }

  function RenderParts(parts: seq<int>): (items: seq<string>)
    ensures |items| == |parts|
    ensures forall k :: 0 <= k < |parts| ==> items[k] == IntToDecimal(parts[k])
  {
    if |parts| == 0 then []
    else
      var rest := RenderParts(parts[1..]);
      var items := [IntToDecimal(parts[0])] + rest;
      assert forall k :: 1 <= k < |parts| ==> items[k] == rest[k - 1] && parts[k] == parts[1..][k - 1];
      items
  }

  /** The '.'-separated items of a rendered version are the rendered
      numbers themselves. */
  lemma RenderedItems(parts: seq<int>)
    requires |parts| >= 1
    requires forall k :: 0 <= k < |parts| ==> 0 <= parts[k]
    ensures GetlineItems(Render(parts), '.') == RenderParts(parts)
  {
    var items := RenderParts(parts);
    forall k | 0 <= k < |items|
      ensures '.' !in items[k]
    {
      var d := IntToDecimal(parts[k]);
      assert items[k] == d && AllDigits(d);
      assert forall j :: 0 <= j < |d| ==> d[j] != '.';
    }
    SplitJoin(items, '.');
    var pieces := SplitOn(Render(parts), '.');
    assert pieces == items;
    assert |pieces[|pieces| - 1]| >= 1;
    assert GetlineItems(Render(parts), '.') == pieces;
  }

  lemma {:induction false} ParseRendered(parts: seq<int>)
    requires forall k :: 0 <= k < |parts| ==> IntMin <= parts[k] <= IntMax
    ensures ParseComponents(RenderParts(parts), StringToInt) == Success(parts)
  {
    var items := RenderParts(parts);
    var r := ParseComponents(items, StringToInt);
    forall k | 0 <= k < |parts|
      ensures StringToInt(items[k]) == Success(parts[k])
    {
      StringToIntOfDecimal(parts[k]);
    }
    assert r.value == parts;
  }

  /** Parsing a rendered version of non-negative 32-bit numbers gives back
      those numbers, zero-padded to three. */
  lemma VersionListOfRendered(parts: seq<int>)
    requires |parts| >= 1
    requires forall k :: 0 <= k < |parts| ==> 0 <= parts[k] <= IntMax
    ensures VersionList(Render(parts)) == Success(PadToThree(parts))
  {
    RenderedItems(parts);
    ParseRendered(parts);
  }

  /** The weighted difference `checkVersion` computes from the first three
      numbers of each list; a negative value means "too old". */
  function VersionScore(ver: seq<int>, min: seq<int>): (score: int)
    requires |ver| >= 3 && |min| >= 3
    ensures ver[..3] == min[..3] ==> score == 0
    ensures TwoDigitComponents(ver) && TwoDigitComponents(min) ==> -999999 <= score <= 999999
  {
    (ver[0] - min[0]) * 10000 + (ver[1] - min[1]) * 100 + (ver[2] - min[2])
  }

  /** (major, minor, patch) of `ver` is lexicographically at least that of `min`. */
  predicate LexicographicAtLeast(ver: seq<int>, min: seq<int>)
    requires |ver| >= 3 && |min| >= 3
  {
    || ver[0] > min[0]
    || (ver[0] == min[0] && ver[1] > min[1])
    || (ver[0] == min[0] && ver[1] == min[1] && ver[2] >= min[2])
  }

  predicate TwoDigitComponents(v: seq<int>)
    requires |v| >= 3
  {
    0 <= v[0] <= 99 && 0 <= v[1] <= 99 && 0 <= v[2] <= 99
  }

  /** While every component stays within two digits, the weighted
      difference accepts exactly the lexicographically newer-or-equal
      versions. */
  lemma ScoreAgreesWithLexicographic(ver: seq<int>, min: seq<int>)
    requires |ver| >= 3 && |min| >= 3
    requires TwoDigitComponents(ver) && TwoDigitComponents(min)
    ensures VersionScore(ver, min) >= 0 <==> LexicographicAtLeast(ver, min)
  {
    var d0, d1, d2 := ver[0] - min[0], ver[1] - min[1], ver[2] - min[2];
    assert -99 <= d1 <= 99 && -99 <= d2 <= 99;
    assert d0 >= 1 ==> d0 * 10000 >= 10000;
    assert d0 <= -1 ==> d0 * 10000 <= -10000;
  }

  /** A three-digit minor number breaks the agreement: 1.100.0 scores as
      equal to 2.0.0 and passes a 2.0.0 minimum. */
  lemma ScoreDisagreesBeyondTwoDigits()
    ensures VersionScore([1, 100, 0], [2, 0, 0]) == 0
    ensures !LexicographicAtLeast([1, 100, 0], [2, 0, 0])
  {
  }

  /** The 32-bit arithmetic of `checkVersion` leaves the int range long
      before the components do: a major difference of 214749 already
      overflows the first product. */
  lemma ScoreLeavesIntRange()
    ensures VersionScore([214748, 0, 0], [0, 0, 0]) <= IntMax
    ensures VersionScore([214749, 0, 0], [0, 0, 0]) > IntMax
  {
  }

  /** `checkVersion` exactly as written: both lists are parsed (the minimum
      first), then the engine is rejected if it IS ready, then if it is too
      old. */
  function CheckVersionAsWritten(minVersion: string, engineVersion: string, ready: bool)
    : (r: Result<(), VersionError>)
    ensures r.Success? ==> !ready
  {
    match VersionList(minVersion)
    case Failure(e) => Failure(BadComponent(e))
    case Success(minList) =>
      match VersionList(engineVersion)
      case Failure(e) => Failure(BadComponent(e))
      case Success(verList) =>
        if ready then Failure(EngineNotReady)
        else if VersionScore(verList, minList) < 0 then Failure(TooOld)
        else Success(())
  }

  /** `gameStart` calls `checkVersion` only after its own guard has seen a
      ready engine, so the check as written never lets a game start. */
  lemma AsWrittenRejectsEveryStartedEngine(minVersion: string, engineVersion: string)
    ensures CheckVersionAsWritten(minVersion, engineVersion, true).Failure?
    ensures VersionList(minVersion).Success? && VersionList(engineVersion).Success? ==>
              CheckVersionAsWritten(minVersion, engineVersion, true) == Failure(EngineNotReady)
  {
  }

  /** `checkVersion` with the readiness guard the other way round, as the
      start-up guard of `gameStart` has it. */
  function CheckVersion(minVersion: string, engineVersion: string, ready: bool)
    : (r: Result<(), VersionError>)
    ensures r.Success? <==>
              && ready
              && VersionList(minVersion).Success?
              && VersionList(engineVersion).Success?
              && VersionScore(VersionList(engineVersion).value, VersionList(minVersion).value) >= 0
    ensures r == Failure(TooOld) <==>
              && ready
              && VersionList(minVersion).Success?
              && VersionList(engineVersion).Success?
              && VersionScore(VersionList(engineVersion).value, VersionList(minVersion).value) < 0
  {
    match VersionList(minVersion)
    case Failure(e) => Failure(BadComponent(e))
    case Success(minList) =>
      match VersionList(engineVersion)
      case Failure(e) => Failure(BadComponent(e))
      case Success(verList) =>
        if !ready then Failure(EngineNotReady)
        else if VersionScore(verList, minList) < 0 then Failure(TooOld)
        else Success(())
  }

  lemma RenderThree(a: nat, b: nat, c: nat, ver: string)
    requires a < 10 && b < 10 && c < 10
    requires ver == [DigitChar(a), '.', DigitChar(b), '.', DigitChar(c)]
    ensures Render([a, b, c]) == ver
  {
    var items := RenderParts([a, b, c]);
    assert items == [[DigitChar(a)], [DigitChar(b)], [DigitChar(c)]];
    assert JoinWith(items[2..], '.') == [DigitChar(c)];
    assert JoinWith(items[1..], '.') == [DigitChar(b), '.', DigitChar(c)];
  }

  lemma VersionOf(a: nat, b: nat, c: nat, ver: string)
    requires a < 10 && b < 10 && c < 10
    requires ver == [DigitChar(a), '.', DigitChar(b), '.', DigitChar(c)]
    ensures VersionList(ver) == Success([a, b, c])
  {
    RenderThree(a, b, c, ver);
    VersionListOfRendered([a, b, c]);
    assert PadToThree([a, b, c]) == [a, b, c];
  }

  /** A started engine reporting 1.1.9 fails a 1.2.0 minimum; one
      reporting 1.2.0 passes it. */
  lemma CheckVersionExamples()
    ensures CheckVersion("1.2.0", "1.1.9", true) == Failure(TooOld)
    ensures CheckVersion("1.2.0", "1.2.0", true) == Success(())
  {
    VersionOf(1, 2, 0, "1.2.0");
    VersionOf(1, 1, 9, "1.1.9");
    assert VersionScore([1, 1, 9], [1, 2, 0]) < 0;
    assert VersionScore([1, 2, 0], [1, 2, 0]) == 0;
  }

  lemma RenderTwo(a: nat, b: nat, ver: string)
    requires a < 10 && b < 10
    requires ver == [DigitChar(a), '.', DigitChar(b)]
    ensures Render([a, b]) == ver
  {
    var items := RenderParts([a, b]);
    assert items == [[DigitChar(a)], [DigitChar(b)]];
    assert JoinWith(items[1..], '.') == [DigitChar(b)];
  }

  lemma PadTwo(a: int, b: int)
    ensures PadToThree([a, b]) == [a, b, 0]
  {
    var p := PadToThree([a, b]);
    assert p[..2] == [a, b];
    assert p[0] == p[..2][0] && p[1] == p[..2][1];
  }

  /** A short version is zero-padded: "1.2" reads as 1.2.0. */
  lemma ShortVersionIsPadded()
    ensures VersionList("1.2") == Success([1, 2, 0])
  {
    RenderTwo(1, 2, "1.2");
    VersionListOfRendered([1, 2]);
    PadTwo(1, 2);
  }

  /** The empty version has no items at all and reads as 0.0.0. */
  lemma EmptyVersionIsZero()
    ensures VersionList("") == Success([0, 0, 0])
  {
    assert GetlineItems("", '.') == [];
    var z := PadToThree([]);
    assert z == [0, 0, 0];
  }
}
